=== FILE: README.md ===
# News recommender core, modelled in Dafny

The service takes a user's stored news preferences, turns them into a NewsAPI
query, fetches articles, and (when an OpenAI client is configured) adds a
summary, keywords, a sentiment and a category to each article. It then scores
every article against the preferences, sorts them stably by descending score,
keeps the first twenty and formats them as `ArticleRecommendation` records.
The NewsAPI fetch and the four LLM analyses are memoised in TTL caches.

This project models that path as pure Dafny functions, plus methods where a
cache is involved. There is one module per source file:

- `Models` (`api/models.py`): the record types and their pydantic validation from a dictionary.
- `PreferenceProcessor`: `parse_and_validate` and `transform_for_fetching`.
- `Engine`: `score_article`, `rank_articles` and `generate_recommendations`.
- `TtlCache`: the `cachetools` TTL cache behind the `@cached` decorator.
- `NewsApiClient`: key check, canonical cache key, parameter normalisation, outcome classification, and the cached fetch.
- `LlmAnalyzer`: client availability, first-choice extraction, the four post-processing rules, cache keys, and the cached analyses.
- `Formatter`: `format_single_article` and `format_recommendation_list`.
- `Api`: `receive_preferences` and the body of `get_recommendations`.

Three helper modules carry no source logic of their own:

- `Wrappers`: `Option` and `Result`.
- `Strings`: the Python string operations the code uses, on ASCII.
- `Values`: a Python value inside a dictionary, as `VNull | VInt | VNum | VStr | VList | VDict`. A Python dictionary is `map<string, Value>`.

Several calls are parameters of the model rather than modelled code:

- the HTTP exchange with NewsAPI, a function from headers and parameters to an outcome;
- the chat completion, a function from the requested analysis to a response;
- SHA-256, a function whose output is 64 characters long. Nothing else about it is assumed, so equal keys are shown to mean an equal name and an equal digest, not an equal text.
- The clock is an explicit `now` argument.

Scores are counted in integer half-points, because every increment the engine makes is 1.0, 2.0 or 0.5. The value written into `relevance_score` is that count divided by two.

Where the code and its tests differ, the model follows the code:

- A record holding only `user_id` yields `{language: "en", pageSize: 20, sortBy: "publishedAt"}`. The test at tests/processing/test_preference_processor.py:108-111 expects only `{"language": "en"}`.
- The tests build preferences with a `topics` field (tests/processing/test_preference_processor.py:8, 73, 91). `UserPreferences` does not declare it, so it is ignored and never earns the category bonus (`Engine.NoCategoriesNoBonus`).

Facts about the code that the model keeps:

- The fetch cache key is built from the caller's raw parameter map, not from the normalised one.
- `generate_summary` may return `""`.
- `extract_keywords` returns `None` when there is no client. With a client it returns `[]` when the call fails (an API error, or no choice with content) or when no piece of the reply is non-blank, as in ", ,".
- An empty `user_id` is accepted.

## Model

| member | source | states |
|---|---|---|
| Models.PreferencesFromDict | api/models.py:4-16 | a payload is accepted iff `user_id` is a string and every other declared field is absent or of its type within its bounds. Each field of the record is then the payload's value, or its declared default when absent |
| Models.PreferencesRoundTrip | api/models.py:4-16 | every valid record written out as a payload is accepted and read back as itself |
| Models.OnlyUserIdGetsDefaults | api/models.py:8-16 | a payload with only `user_id` gets every declared default: empty lists, "en", level 1, length 1000 |
| Models.OutOfBoundsRejected | api/models.py:15-16 | a reading level outside [1, 5] or an article length under 100 fails validation |
| Models.UnknownKeysIgnored | api/models.py:4-16 | adding a key the record does not declare changes nothing |
| Models.IntField | api/models.py:15-16 | an accepted integer lies within the declared `ge`/`le` bounds. An absent one takes the default |
| Models.MakeRecommendation | api/models.py:19-30 | a record exists iff title, url and source are strings and each optional field is `None` or of its declared type. Its fields, keywords and score included, are then the given values |
| Models.RecommendationRoundTrip | api/models.py:19-30 | every record, its fields written out as Python values, is built again as itself |
| PreferenceProcessor.ParseAndValidate | processing/preference_processor.py:16-28 | fails with "Invalid preference data" exactly when validation fails. It never yields a partial record |
| PreferenceProcessor.MissingUserIdRejected | processing/preference_processor.py:20-28 | a payload without `user_id` is rejected |
| PreferenceProcessor.TransformForFetching | processing/preference_processor.py:30-60 | keys come from the six query keys. `language` (or "en"), `pageSize` 20 and `sortBy` are always present. `q` appears iff categories ++ keywords is non-empty and is their " OR " join. `sources` and `excludeDomains` appear iff their lists are non-empty and are their "," joins |
| PreferenceProcessor.SearchTerms | processing/preference_processor.py:41-46 | every preferred category in order, then every keyword in order. A term occurs iff it is a category or a keyword |
| PreferenceProcessor.QueryIgnoresOtherFields | processing/preference_processor.py:34-60 | authors, reading level, length and user id never affect the query |
| PreferenceProcessor.OnlyUserIdQuery | processing/preference_processor.py:34-48 | a default record yields exactly the three fixed parameters |
| PreferenceProcessor.EmptyKeywordStillSetsQuery | processing/preference_processor.py:41-48 | `q` follows the term list, not the joined text: one empty keyword still sets `q` to "" |
| PreferenceProcessor.SourcesRecoverable | processing/preference_processor.py:51-52 | splitting `sources` on commas gives back the source list when no name contains a comma |
| PreferenceProcessor.ExcludedRecoverable | processing/preference_processor.py:53-54 | splitting `excludeDomains` on commas gives back the excluded list |
| Engine.ReadTextAsWritten | recommendations/engine.py:24-26 | the read fails exactly when the field is present and not a string. An absent field reads as "" |
| Engine.ReadText | recommendations/engine.py:24-26 | the corrected read agrees with the as-written read whenever that one succeeds. A non-string field reads as "" |
| Engine.SourceNameAsWritten | recommendations/engine.py:43 | the read fails exactly when `source` is present and is not a mapping, or its `name` is present and not a string. A missing `source` reads as "" |
| Engine.SourceName | recommendations/engine.py:43 | the corrected source name agrees with the as-written read whenever that one succeeds |
| Engine.HaystackLayout | recommendations/engine.py:24-27 | the lowered title, a space, the lowered description, a space, the lowered content, each at its own position |
| Engine.KeywordHits | recommendations/engine.py:29-33 | at most one hit per keyword entry |
| Engine.KeywordHitsAppend | recommendations/engine.py:30-33 | hits add up over a split keyword list, so duplicates count with multiplicity |
| Engine.KeywordHitsNoneIff | recommendations/engine.py:30-33 | no hit iff no lower-cased keyword occurs in the text |
| Engine.KeywordHitsAllIff | recommendations/engine.py:30-33 | every entry hits iff every lower-cased keyword occurs in the text |
| Engine.ScoreArticle | recommendations/engine.py:18-52 | the score is between 0 and 2·|keywords| + 5 half-points, and is odd iff the source bonus applies (the bonus is added at most once) |
| Engine.ScoreNothingToMatch | recommendations/engine.py:18-52 | with no keywords, categories or sources in the preferences, every article scores 0 |
| Engine.ScoreKeywordPoints | recommendations/engine.py:29-33 | each keyword entry found in the text adds one point (two half-points) to what the score is without keywords |
| Engine.ScoreCategoryBonus | recommendations/engine.py:37-40 | a matching category adds two points (four half-points) to what the score is without preferred categories, and nothing otherwise |
| Engine.ScoreWithoutCategory | recommendations/engine.py:37-40 | removing the article's category takes away exactly the category bonus |
| Engine.ScoreSourceBonus | recommendations/engine.py:43-46 | a matching source adds half a point (one half-point) to what the score is without preferred sources, and nothing otherwise |
| Engine.ScoreZeroIff | recommendations/engine.py:23-52 | the score is 0 iff no keyword occurs, the category does not match and the source does not match |
| Engine.ScoreFromReads | recommendations/engine.py:24-46 | the score depends only on the lowered text, the category test and the source name |
| Engine.ScoreIgnoresOtherFields | recommendations/engine.py:24-46 | fields other than title, description, content, category and source never change the score |
| Engine.ScoreArticleAsWritten | recommendations/engine.py:18-52 | the code as written fails exactly when a title, description or content read fails or the source name read fails. Whenever it returns a score, that score equals the corrected one |
| Engine.NullDescriptionRaises | recommendations/engine.py:25 | an article whose `description` is null makes the code as written raise |
| Engine.NullReadsAsMissing | recommendations/engine.py:24-26 | in the corrected score, a null title, description or content scores as if absent |
| Engine.Range | recommendations/engine.py:62-66 | the input positions lo, lo+1, …, hi-1 |
| Engine.InsertByScore | recommendations/engine.py:69 | inserting a position grows the order by one and keeps its multiset plus that position |
| Engine.InsertRanked | recommendations/engine.py:69 | inserting a position smaller than all others keeps the order sorted by (score descending, position ascending) |
| Engine.RankFrom | recommendations/engine.py:69 | the positions lo.. in stable descending order of score, as a permutation of those positions |
| Engine.RankingUnique | recommendations/engine.py:69 | two stable descending orders of the same positions are equal, so the sort result is determined |
| Engine.RankArticles | recommendations/engine.py:54-72 | the output is the scored articles picked by a stable descending ranking of their scores. Each element's `relevance_score` is its own score, and scores do not increase |
| Engine.RankArticlesDetermined | recommendations/engine.py:54-72 | any stable descending ranking picks out exactly the output of `rank_articles` |
| Engine.PickPermutes | recommendations/engine.py:62-69 | picking by two permutations of the same positions yields the same multiset |
| Engine.RankArticlesPermutes | recommendations/engine.py:62-69 | the ranked list is a permutation of the scored input |
| Engine.GenerateRecommendations | recommendations/engine.py:74-84 | the first min(n, len) ranked articles |
| Engine.GenerateKeepsBest | recommendations/engine.py:78-81 | no article left out scores higher than one kept |
| Engine.NoCategoriesNoBonus | recommendations/engine.py:37-40 | preferences built without `preferred_categories` never give the category bonus |
| TtlCache.LiveKeys | fetchers/newsapi_client.py:14 | the keys whose entries are younger than the TTL |
| TtlCache.Lookup | fetchers/newsapi_client.py:36 | a value is found iff its key is live |
| TtlCache.Put | analysis/llm_analyzer.py:13 | storing keeps the cache within its size and makes the key live with the new value. Other entries are live, unchanged ones. All live keys are kept when the key was live or there was room; otherwise exactly one live key is evicted |
| TtlCache.Survivors | analysis/llm_analyzer.py:13 | the kept live keys leave room for the new key |
| TtlCache.Memoize | fetchers/newsapi_client.py:36 | the wrapped call runs iff no live entry exists. A hit returns the stored value and changes nothing. A miss stores the computed result (`None` included). No other key gains a value |
| TtlCache.RepeatWithinTtl | analysis/llm_analyzer.py:79 | a repeat within the TTL after a miss returns the first result without running the call |
| NewsApiClient.NewClient | fetchers/newsapi_client.py:27-33 | construction fails with "NewsAPI key is required." iff the key is empty |
| NewsApiClient.PairsMap | fetchers/newsapi_client.py:17-19 | the keys of the mapping are exactly the keys listed in the sequence |
| NewsApiClient.PairsMapValues | fetchers/newsapi_client.py:17-19 | in an ascending sequence each listed value is the one in the mapping |
| NewsApiClient.Smallest | fetchers/newsapi_client.py:19 | returns a member of the set that is below every other member |
| NewsApiClient.MakeCacheKey | fetchers/newsapi_client.py:17-19 | the key lists the map's entries in ascending key order and spells out exactly that map |
| NewsApiClient.KeyUnique | fetchers/newsapi_client.py:17-19 | one map has only one ascending key, so insertion order cannot matter |
| NewsApiClient.KeyIffSameParams | fetchers/newsapi_client.py:17-19 | keys are equal iff the parameter maps are equal |
| NewsApiClient.PythonInt | fetchers/newsapi_client.py:55 | an int is kept. None, a list or a dict cannot be converted |
| NewsApiClient.Normalise | fetchers/newsapi_client.py:50-60 | fails iff `int()` of the page size fails. Otherwise only the seven request keys appear and every value sent is truthy |
| NewsApiClient.NormaliseOptional | fetchers/newsapi_client.py:50-60 | q, sources, excludeDomains and from are sent iff given and truthy, and unchanged |
| NewsApiClient.NormaliseDefaults | fetchers/newsapi_client.py:50-60 | language and sortBy take "en" and "publishedAt" only when absent. A given falsy value is dropped |
| NewsApiClient.NormalisePageSize | fetchers/newsapi_client.py:55-60 | the sent page size is min(requested or 20, 100), never above 100, and 20 when absent |
| NewsApiClient.Classify | fetchers/newsapi_client.py:64-88 | the articles (default `[]`) are returned iff the response is not an HTTP error, its body has status "ok" and the articles value has a `len()`. A transport error, an HTTP error, any other status, or a `None` or numeric articles value gives `None` |
| NewsApiClient.NumericArticlesFail | fetchers/newsapi_client.py:71-88 | an "ok" body whose `articles` is a number makes the success log's `len()` raise, and the fetch yields `None` |
| NewsApiClient.OkWithoutArticles | fetchers/newsapi_client.py:71-75 | an "ok" body without `articles` yields an empty list |
| NewsApiClient.FetchArticles | fetchers/newsapi_client.py:36-88 | a live entry for the raw map's key is returned with no request. Otherwise the normalised parameters are sent, the classified result is cached, and a page size `int()` rejects raises: `ValueError` for a string, `TypeError` otherwise. No other entry changes |
| NewsApiClient.RepeatFetchIsCached | fetchers/newsapi_client.py:36 | an equal map within the TTL is answered from the cache without a request |
| NewsApiClient.OtherParamsMiss | fetchers/newsapi_client.py:36 | a different map that was not cached makes its own request |
| LlmAnalyzer.NewAnalyzer | analysis/llm_analyzer.py:27-42 | no client for an empty or placeholder key. Otherwise there is a client iff construction succeeds |
| LlmAnalyzer.FirstChoice | analysis/llm_analyzer.py:63-77 | a reply exists iff the completion has a first choice with content. It is that content with surrounding whitespace removed |
| LlmAnalyzer.MakeLlmCall | analysis/llm_analyzer.py:44-48 | without a client, `None` and no request |
| LlmAnalyzer.StripAll | analysis/llm_analyzer.py:90 | element i is piece i with surrounding whitespace stripped, and every element is trimmed |
| LlmAnalyzer.DropEmpty | analysis/llm_analyzer.py:90 | a word is kept iff it occurs and is not empty |
| LlmAnalyzer.KeepStripped | analysis/llm_analyzer.py:90 | every kept word is non-empty and trimmed. A word is kept iff it is some piece stripped and is not empty |
| LlmAnalyzer.KeepStrippedAppend | analysis/llm_analyzer.py:90 | keeping distributes over concatenation, so kept words come in the order of their pieces |
| LlmAnalyzer.ParseKeywords | analysis/llm_analyzer.py:88-94 | every keyword is non-empty and trimmed. No reply or an empty reply gives `[]`. Otherwise a word is a keyword iff it is some comma-separated piece of the reply, stripped and non-empty |
| LlmAnalyzer.ParseKeywordsRoundTrip | analysis/llm_analyzer.py:89-92 | clean keywords joined by commas parse back to exactly themselves |
| LlmAnalyzer.ValidSentiment | analysis/llm_analyzer.py:119-124 | the lower-cased reply iff it is positive, negative or neutral. Otherwise `None` |
| LlmAnalyzer.ValidCategory | analysis/llm_analyzer.py:136-141 | a result iff the reply lower-cased equals some category lower-cased. The result is then the lower-cased reply |
| LlmAnalyzer.Outcome | analysis/llm_analyzer.py:86-141 | `None` without a client. With one, each result is read off the model's reply to that call: keywords are the parsed reply, a summary is the reply itself, a sentiment is present iff the lowered reply is one of the three and is then that lowered reply, a category is present iff the lowered non-empty reply is among the lowered categories and is then that lowered reply |
| LlmAnalyzer.OutcomeDeterminedByReply | analysis/llm_analyzer.py:86-141 | two models that give the same reply to a call give the same result |
| LlmAnalyzer.CacheKey | analysis/llm_analyzer.py:15-18 | the name, then ':', then the 64-character digest of the text |
| LlmAnalyzer.KeyText | analysis/llm_analyzer.py:79-126 | the text hashed for each analysis: the article text, followed by the keyword count, the summary length or the sorted categories run together. Sentiment hashes the text alone |
| LlmAnalyzer.Key | analysis/llm_analyzer.py:79-126 | the analysis name, ':', then the digest of its hashed text |
| LlmAnalyzer.DistinctNamesDistinctKeys | analysis/llm_analyzer.py:15-18 | different function names never give the same key |
| LlmAnalyzer.KeyDeterminesDigest | analysis/llm_analyzer.py:15-18 | equal keys mean the same name and the same digest of the text |
| LlmAnalyzer.DifferentAnalysesDifferentKeys | analysis/llm_analyzer.py:79-126 | two different analyses of one text never share a cache entry |
| LlmAnalyzer.CategoryKeyIgnoresOrder | analysis/llm_analyzer.py:126 | the categorize key is the same for any ordering of the categories |
| LlmAnalyzer.CategoryCheckIgnoresOrder | analysis/llm_analyzer.py:137 | the accepted categories do not depend on their order |
| LlmAnalyzer.KeywordKeysCollide | analysis/llm_analyzer.py:79 | the keyword requests ("a1", 5) and ("a", 15) share one key |
| LlmAnalyzer.CategoryKeysCollide | analysis/llm_analyzer.py:126 | the category lists ["ab"] and ["a", "b"] share one key for one text |
| LlmAnalyzer.Analyze | analysis/llm_analyzer.py:79-141 | a live entry is returned with no request. Otherwise the outcome is computed and cached (`None` included). The model is asked iff there was a miss and a client. No other key gains a value |
| LlmAnalyzer.RepeatAnalysisCached | analysis/llm_analyzer.py:110 | a repeat within the TTL returns the first result without asking the model, whatever it would answer |
| LlmAnalyzer.OtherAnalysisRuns | analysis/llm_analyzer.py:79-110 | an analysis under another key that is not cached asks the model |
| LlmAnalyzer.CategoryKeyCollision | analysis/llm_analyzer.py:126-141 | through the shared key, a categorisation among ["a", "b"] can return "ab", which is not one of its categories |
| Formatter.SourceNameField | responses/formatter.py:35 | the read fails iff `source` is present and not a mapping. A missing `source` or `name` gives "N/A" |
| Formatter.FormatFields | responses/formatter.py:31-42 | the record is built iff the article is well typed: title and url absent or strings, `source` absent or a mapping with an absent or string `name`, summary, sentiment and category absent, null or strings, keywords absent, null or a list of strings, the score absent, null, an int or a float. A built record has the title (default "N/A"), the url (default "") and the source name. The optional fields are copied unchanged, with an absent one giving `None` |
| Formatter.Placeholder | responses/formatter.py:50-55 | the placeholder has title "Error Formatting Article", the article's url, source "N/A" and the fixed summary. It fails only when the url is not a string |
| Formatter.FormatSingleArticle | responses/formatter.py:15-55 | the built record if validation passes, else the placeholder. An exception escapes only when both fail |
| Formatter.WellTypedCopied | responses/formatter.py:31-42 | every well-typed article is formatted without the placeholder, copied field by field, and missing optional fields become `None` |
| Formatter.MinimalArticle | responses/formatter.py:31-42 | an article with only a title, a url and a source name becomes the record with those three and every optional field `None` |
| Formatter.SourceWithoutName | responses/formatter.py:35 | a `source` mapping without `name` gives "N/A" as the source |
| Formatter.OtherFieldsIgnored | responses/formatter.py:31-42 | fields other than the eight never change the output |
| Formatter.SourceNotMappingPlaceholder | responses/formatter.py:35-55 | a `source` present but not a mapping takes the placeholder path |
| Formatter.InvalidFieldPlaceholder | responses/formatter.py:41-55 | a string relevance score gives the placeholder with the article's url |
| Formatter.FormatRecommendationList | responses/formatter.py:57-67 | same length and order. Element i formats input i, and the list fails only if some element raises |
| Formatter.NothingDropped | responses/formatter.py:57-67 | when every url is a string, no article is dropped |
| Formatter.FormatAppend | responses/formatter.py:62-64 | formatting a concatenation formats its parts |
| Api.ReceivePreferences | api/main.py:80 | the record is stored under its user id. Every other user's record is unchanged |
| Api.AnalysisText | api/main.py:136 | the content if truthy, else the description if truthy, else the title if truthy, else "" |
| Api.Enrich | api/main.py:136-150 | an article with text becomes a copy with the four results added and every other field kept. An article without text passes through unchanged. It fails iff the text is truthy and is not a string, or the title is present and cannot be sliced |
| Api.NullTitleRaises | api/main.py:139-147 | an article with string content and a null title makes the debug line's slice raise |
| Api.EnrichAll | api/main.py:134-151 | count and order are kept, and element i is article i enriched |
| Api.ArticlesOf | api/main.py:131-134 | the fetched value read as a list of article dictionaries, element by element |
| Api.RankAndFormat | api/main.py:156-168 | exactly min(20, number of articles) recommendations, and recommendation i formats the i-th ranked article |
| Api.GetRecommendations | api/main.py:95-168 | an unknown user gets not-found whatever the services do. A `None` fetch gives an empty list. Client errors map to their 500 details. A success carries the user id and at most 20 entries. After a fetch of a list of articles, it carries exactly min(20, number fetched) |
| Api.UnavailableRanksFetched | api/main.py:128-131 | without a client the fetched articles are ranked as they are, and the analyses are never consulted |
| Api.ReadyRanksEnriched | api/main.py:132-151 | with a client the enriched articles are ranked |
| Api.EnrichedCategoryDecides | api/main.py:145 | after enrichment, the category bonus follows the analyzer's category |
| Api.StoredRecordServes | api/main.py:80-122 | right after storing, the pipeline reads the stored record |
| Strings.SortIgnoresOrder | analysis/llm_analyzer.py:126 | `sorted` of two permutations of one list is the same list |
| Strings.SplitJoin | analysis/llm_analyzer.py:90 | splitting a join of comma-free pieces gives the pieces back |
| Strings.ParseIntRoundTrip | fetchers/newsapi_client.py:55 | `int(str(n)) == n` |
| Strings.ContainsIff | recommendations/engine.py:32 | the substring test holds iff the needle occurs at some position |

## Left out

- HTTP plumbing is not modelled: FastAPI routing, the API-key header check, slowapi rate limiting and the exception handlers (`api/main.py:20-66`).
- Network calls are not modelled. NewsAPI and OpenAI are function parameters, and the prompt wording is not modelled.
- SHA-256 and the exact `json.dumps` text are not modelled. The digest is a parameter, and the JSON key is the ascending list of entries it serialises.
- Parts of `cachetools` are not modelled: which entry it evicts (left open), monotonic versus wall clock, and locking.
- Float arithmetic is not modelled. Scores are exact half-points.
- `relevance_score` in the formatter accepts only a Python `int` or `float`.
- Pydantic coercions are not modelled. A field of the wrong type is a validation error, so strings are never coerced into numbers.
- Unicode is not modelled. `str.lower`, `str.strip` and `str.isspace` act on ASCII only. `int()` does not accept underscores or non-ASCII digits.
- Negative `num_recommendations` is not modelled, because Python's negative-index slicing is excluded by `n: nat`. The pipeline always passes 20.
- Some dynamic typing cases are left out. If the fetched value is not a list of dictionaries, the pipeline is taken to fail (`Api.ArticlesOf`). Python would tolerate a few falsy non-list values on some paths.
- The pipeline treats the analyses as a function of the text. The cache state threaded between the calls of one request is modelled in `LlmAnalyzer.Analyze`, not in `Api`.
- `rank_articles` writes the score into the caller's dictionaries, and this aliasing is not modelled. The score is overwritten on every ranking and never read back, so results are unaffected.
- The `ResponseFormatter` round trip through `.dict()` and back into `RecommendationResponse` is taken as the identity.
- `configuration/config.py`, `manual_test.py`, every `__main__` block and all logging are not part of this model. The exception is two log lines whose arguments can raise: `len(articles)` in the fetch (`NewsApiClient.Classify`) and the title slice in the analysis loop (`Api.Enrich`).
- Api.GetRecommendations: uses the corrected engine score, so every article read that raises in `score_article` (`recommendations/engine.py:24-26`, `:43`) reads as "" and the article is ranked. The code as written raises there, outside the handler's `try` (`api/main.py:105-117`), and the request fails. This covers a present `title`, `description` or `content` that is not a string (`null` included), a `source` that is not a mapping, and a `source.name` that is not a string (see Findings and `Engine.ScoreArticleAsWritten`).
- JSON `true` and `false` are not modelled: `Value` has no boolean. Python would accept `int(True)` as a page size, Pydantic would accept a bool where a number is declared, and `True.lower()` would raise.

## Findings

| source | as written | input that shows it | evidently intended | confidence | as-written member | corrected member |
|---|---|---|---|---|---|---|
| recommendations/engine.py:24-43 | `article.get('description', '').lower()` raises `AttributeError` when the key is present with value `None`. NewsAPI sends `null` for a missing description or content, so the whole request fails | `{"title": "Chip news", "description": null}` | a null field scores like a missing one ("") | medium, not executed | Engine.NullDescriptionRaises | Engine.NullReadsAsMissing |

=== FILE: api.dfy ===
/** The two request handlers of `api/main.py`: storing a preference record,
    and the recommendation pipeline (look the user up, build the query,
    fetch, enrich each article with the four analyses when the analyzer has
    a client, rank, keep twenty, format). The fetch and the analyses are
    function parameters: their cached, clocked behaviour is modelled on its
    own in `NewsApiClient` and `LlmAnalyzer`. The query builder, the engine
    and the formatter are the ones of this model. */
module Api {
  import opened Wrappers
  import opened Values
  import opened Models
  import opened PreferenceProcessor
  import opened Engine
  import opened Formatter

  /** The `num_recommendations` the pipeline asks the engine for. */
  const PipelineLimit := 20
  const NotFoundPrefix := "Preferences not found for user "
  const ConfigurationFailure := "NewsAPI client configuration error."
  const FetchFailure := "Error processing preferences or fetching news"

  /** `user_preferences_db`: the stored record per user id. */
  type Store = map<string, UserPreferences>

  /** `receive_preferences`: the record is stored under its user id,
      replacing any earlier one; every other user's record stays. */
  function ReceivePreferences(store: Store, p: UserPreferences): (s: Store)
    ensures s.Keys == store.Keys + {p.userId}
    ensures s[p.userId] == p
    ensures forall u :: u in store && u != p.userId ==> s[u] == store[u]
  {
    store[p.userId := p]
  }

  /** How a request ends when it does not succeed: an `HTTPException` the
      handler raises, or an exception that escapes it. */
  datatype HttpError = NotFound(detail: string) | ServerError(detail: string) | Unhandled

  /** What constructing the client and calling `fetch_articles` gives: a
      `ValueError` (a missing key, or a `pageSize` string `int()` cannot
      parse), another exception (`TypeError` from `int()` of a `None`, list
      or mapping included), or the returned value (`None` for a failed fetch). */
  datatype FetchOutcome = ClientValueError | ClientRaised | Fetched(result: Option<Value>)

  /** The four analysis results for one text, as the analyzer returns them. */
  datatype Analysis = Analysis(summary: Value, keywords: Value, sentiment: Value, category: Value)

  // ---------------------------------------------------------------------------
  // Enrichment
  // ---------------------------------------------------------------------------

  /** `article.get('content') or article.get('description') or article.get('title') or ""`. */
  function AnalysisText(a: Dict): (r: Value)
    ensures Truthy(r) <==> Truthy(Get(a, "content", VNull)) || Truthy(Get(a, "description", VNull))
                           || Truthy(Get(a, "title", VNull))
    ensures Truthy(Get(a, "content", VNull)) ==> r == a["content"]
    ensures !Truthy(Get(a, "content", VNull)) && Truthy(Get(a, "description", VNull)) ==> r == a["description"]
    ensures (!Truthy(Get(a, "content", VNull)) && !Truthy(Get(a, "description", VNull))
             && Truthy(Get(a, "title", VNull))) ==> r == a["title"]
    ensures !Truthy(r) ==> r == VStr("")
  {
    var content := Get(a, "content", VNull);
    var description := Get(a, "description", VNull);
    var title := Get(a, "title", VNull);
    if Truthy(content) then content
    else if Truthy(description) then description
    else if Truthy(title) then title
    else VStr("")
  }

  /** `v[:30]` is defined: a string or a list. */
  predicate Sliceable(v: Value) {
    v.VStr? || v.VList?
  }

  /** One article of the analysis loop: a copy with the four results added
      when it has text, the article itself when it has none. `None` where the
      text is truthy but not a string, so building the cache key raises, and
      where the debug line's `.get('title', 'N/A')[:30]` raises on the copy
      because its title is `None`, a number or a dictionary. */
  function Enrich(a: Dict, analyze: string -> Analysis): (r: Option<Dict>)
    ensures !Truthy(AnalysisText(a)) ==> r == Some(a)
    ensures r.None? <==> Truthy(AnalysisText(a))
                         && (!AnalysisText(a).VStr? || !Sliceable(Get(a, "title", VStr(NotAvailable))))
    ensures r.Some? && Truthy(AnalysisText(a)) ==>
      var an := analyze(AnalysisText(a).s);
      && r.value.Keys == a.Keys + {"summary", "keywords", "sentiment", "category"}
      && r.value["summary"] == an.summary && r.value["keywords"] == an.keywords
      && r.value["sentiment"] == an.sentiment && r.value["category"] == an.category
      && (forall k :: k in a && k !in {"summary", "keywords", "sentiment", "category"} ==> r.value[k] == a[k])
  {
    var text := AnalysisText(a);
    if !Truthy(text) then Some(a)
    else if !text.VStr? then None
    else if !Sliceable(Get(a, "title", VStr(NotAvailable))) then None
    else
      var an := analyze(text.s);
      Some(a["summary" := an.summary]["keywords" := an.keywords]["sentiment" := an.sentiment]["category" := an.category])
  }

  /** The analysis loop: every article enriched, count and order kept. */
  function EnrichAll(articles: seq<Dict>, analyze: string -> Analysis): (r: Option<seq<Dict>>)
    ensures r.Some? <==> forall i :: 0 <= i < |articles| ==> Enrich(articles[i], analyze).Some?
    ensures r.Some? ==> |r.value| == |articles|
    ensures r.Some? ==> forall i :: 0 <= i < |articles| ==> r.value[i] == Enrich(articles[i], analyze).value
  {
    if |articles| == 0 then Some([])
    else
      match Enrich(articles[0], analyze)
      case None => None
      case Some(first) =>
        match EnrichAll(articles[1..], analyze)
        case None => None
        case Some(rest) => Some([first] + rest)
  }

  /** The fetched value iterated as a list of article dictionaries; `None`
      for anything else, on which the handler's loops raise. */
  function ArticlesOf(v: Value): (r: Option<seq<Dict>>)
    ensures r.Some? <==> v.VList? && forall i :: 0 <= i < |v.items| ==> v.items[i].VDict?
    ensures r.Some? ==> |r.value| == |v.items| && forall i :: 0 <= i < |v.items| ==> v.items[i] == VDict(r.value[i])
  {
    if v.VList? then DictsOf(v.items) else None
  }

  function DictsOf(items: seq<Value>): (r: Option<seq<Dict>>)
    ensures r.Some? <==> forall i :: 0 <= i < |items| ==> items[i].VDict?
    ensures r.Some? ==> |r.value| == |items| && forall i :: 0 <= i < |items| ==> items[i] == VDict(r.value[i])
  {
    if |items| == 0 then Some([])
    else if !items[0].VDict? then None
    else
      match DictsOf(items[1..])
      case None => None
      case Some(rest) => Some([items[0].fields] + rest)
  }

  // ---------------------------------------------------------------------------
  // The pipeline
  // ---------------------------------------------------------------------------

  /** Ranking, the prefix of twenty, and formatting. */
  function RankAndFormat(userId: string, p: UserPreferences, articles: seq<Dict>): (r: Result<RecommendationResponse, HttpError>)
    ensures r.Success? <==> FormatRecommendationList(GenerateRecommendations(articles, p, PipelineLimit)).Some?
    ensures r.Failure? ==> r.error == Unhandled
    ensures r.Success? ==> r.value.userId == userId
    ensures r.Success? ==> |r.value.recommendations| == if |articles| < PipelineLimit then |articles| else PipelineLimit
    ensures r.Success? ==> forall i :: 0 <= i < |r.value.recommendations| ==>
      Some(r.value.recommendations[i]) == FormatSingleArticle(RankArticles(articles, p)[i])
  {
    var ranked := GenerateRecommendations(articles, p, PipelineLimit);
    match FormatRecommendationList(ranked)
    case None => Failure(Unhandled)
    case Some(recs) => Success(RecommendationResponse(userId, recs))
  }

  /** `get_recommendations` after authentication and rate limiting. */
  function GetRecommendations(store: Store, userId: string, fetch: Dict -> FetchOutcome,
                              analyzerReady: bool, analyze: string -> Analysis): (r: Result<RecommendationResponse, HttpError>)
    ensures userId !in store ==> r == Failure(NotFound(NotFoundPrefix + userId))
    ensures userId in store && fetch(TransformForFetching(store[userId])) == Fetched(None) ==>
              r == Success(RecommendationResponse(userId, []))
    ensures userId in store && fetch(TransformForFetching(store[userId])) == ClientValueError ==>
              r == Failure(ServerError(ConfigurationFailure))
    ensures userId in store && fetch(TransformForFetching(store[userId])) == ClientRaised ==>
              r == Failure(ServerError(FetchFailure))
    ensures r.Success? ==> r.value.userId == userId && |r.value.recommendations| <= PipelineLimit
    ensures userId in store && r.Success? ==>
              var outcome := fetch(TransformForFetching(store[userId]));
              outcome.Fetched? && outcome.result.Some? && ArticlesOf(outcome.result.value).Some? ==>
                var n := |ArticlesOf(outcome.result.value).value|;
                |r.value.recommendations| == if n < PipelineLimit then n else PipelineLimit
  {
    if userId !in store then Failure(NotFound(NotFoundPrefix + userId))
    else
      var p := store[userId];
      match fetch(TransformForFetching(p))
      case ClientValueError => Failure(ServerError(ConfigurationFailure))
      case ClientRaised => Failure(ServerError(FetchFailure))
      case Fetched(None) => Success(RecommendationResponse(userId, []))
      case Fetched(Some(v)) =>
        match ArticlesOf(v)
        case None => Failure(Unhandled)
        case Some(fetched) =>
          var toRank := if analyzerReady then EnrichAll(fetched, analyze) else Some(fetched);
          match toRank
          case None => Failure(Unhandled)
          case Some(articles) => RankAndFormat(userId, p, articles)
  }

  /** Without an analyzer client the fetched articles go to ranking as they
      are, and no analysis is consulted. */
  lemma UnavailableRanksFetched(store: Store, userId: string, fetch: Dict -> FetchOutcome,
                                analyze1: string -> Analysis, analyze2: string -> Analysis, fetched: seq<Dict>)
    requires userId in store
    requires fetch(TransformForFetching(store[userId])).Fetched?
    requires fetch(TransformForFetching(store[userId])).result.Some?
    requires ArticlesOf(fetch(TransformForFetching(store[userId])).result.value) == Some(fetched)
    ensures GetRecommendations(store, userId, fetch, false, analyze1) == RankAndFormat(userId, store[userId], fetched)
    ensures GetRecommendations(store, userId, fetch, false, analyze1) == GetRecommendations(store, userId, fetch, false, analyze2)
  {
    RanksFetched(store, userId, fetch, analyze1, fetched);
    RanksFetched(store, userId, fetch, analyze2, fetched);
  }

  lemma RanksFetched(store: Store, userId: string, fetch: Dict -> FetchOutcome,
                     analyze: string -> Analysis, fetched: seq<Dict>)
    requires userId in store
    requires fetch(TransformForFetching(store[userId])).Fetched?
    requires fetch(TransformForFetching(store[userId])).result.Some?
    requires ArticlesOf(fetch(TransformForFetching(store[userId])).result.value) == Some(fetched)
    ensures GetRecommendations(store, userId, fetch, false, analyze) == RankAndFormat(userId, store[userId], fetched)
  {
  }

  /** With a client, the enriched articles are ranked. */
  lemma ReadyRanksEnriched(store: Store, userId: string, fetch: Dict -> FetchOutcome,
                           analyze: string -> Analysis, fetched: seq<Dict>)
    requires userId in store
    requires fetch(TransformForFetching(store[userId])).Fetched?
    requires fetch(TransformForFetching(store[userId])).result.Some?
    requires ArticlesOf(fetch(TransformForFetching(store[userId])).result.value) == Some(fetched)
    requires EnrichAll(fetched, analyze).Some?
    ensures GetRecommendations(store, userId, fetch, true, analyze)
         == RankAndFormat(userId, store[userId], EnrichAll(fetched, analyze).value)
  {
  }

  /** A null title stops the analysed path at the debug line, whatever the text. */
  lemma NullTitleRaises(a: Dict, analyze: string -> Analysis)
    requires "content" in a && a["content"].VStr? && a["content"].s != ""
    requires "title" in a && a["title"] == VNull
    ensures Enrich(a, analyze).None?
  {
  }

  /** After enrichment the category bonus follows the analyzer's category:
      the fetched article's own `category` field is overwritten. */
  lemma EnrichedCategoryDecides(a: Dict, analyze: string -> Analysis, p: Preferences)
    requires Enrich(a, analyze).Some? && Truthy(AnalysisText(a))
    ensures var c := analyze(AnalysisText(a).s).category;
      CategoryMatches(Enrich(a, analyze).value, p) <==> c.VStr? && c.s != "" && c.s in p.preferredCategories
  {
  }

  /** The record stored last for a user is the one the pipeline reads. */
  lemma StoredRecordServes(store: Store, p: UserPreferences, fetch: Dict -> FetchOutcome,
                           analyzerReady: bool, analyze: string -> Analysis)
    requires fetch(TransformForFetching(p)) == Fetched(None)
    ensures GetRecommendations(ReceivePreferences(store, p), p.userId, fetch, analyzerReady, analyze)
         == Success(RecommendationResponse(p.userId, []))
  {
  }
}

=== FILE: engine.dfy ===
/** `RecommendationEngine` of `recommendations/engine.py`: an additive
    relevance score per article, a stable descending sort on that score, and
    a prefix of the ranking.

    Every score the engine can produce is a sum of 1.0, 2.0 and 0.5 steps, so
    scores are counted here in integer half-points; the value stored under
    `relevance_score` is that count divided by two. */
module Engine {
  import opened Wrappers
  import opened Strings
  import opened Values
  import opened Models

  /** A fetched article, possibly enriched with analysis fields. */
  type Article = Dict

  /** Half-points for one matching keyword (1.0), the category (2.0) and the source (0.5). */
  const KeywordHalves := 2
  const CategoryHalves := 4
  const SourceHalves := 1

  /** The field `rank_articles` writes the score into. */
  const RelevanceKey := "relevance_score"

  /** The article fields the score reads; every other field is ignored. */
  const ScoredFields: set<string> := {"title", "description", "content", "category", "source"}

  // ---------------------------------------------------------------------------
  // Field reads, as written and corrected
  // ---------------------------------------------------------------------------

  /** `article.get(k, '').lower()` as written: `None` stands for the
      `AttributeError` raised when the field is present but is not a string
      (NewsAPI sends `null` for a missing description or content). */
  function ReadTextAsWritten(a: Dict, k: string): (r: Option<string>)
    ensures r.Some? <==> (k !in a || a[k].VStr?)
    ensures k !in a ==> r == Some("")
  {
    match Get(a, k, VStr(""))
    case VStr(s) => Some(Lower(s))
    case _ => None
  }

  /** `article.get('source', {}).get('name', '').lower()` as written. */
  function SourceNameAsWritten(a: Article): (r: Option<string>)
    ensures r.Some? <==> ("source" !in a || (a["source"].VDict? && ReadTextAsWritten(a["source"].fields, "name").Some?))
    ensures "source" !in a ==> r == Some("")
  {
    match Get(a, "source", VDict(map[]))
    case VDict(m) => ReadTextAsWritten(m, "name")
    case _ => None
  }

  /** The corrected read: a field that is absent or not a string reads as "". */
  function ReadText(a: Dict, k: string): (r: string)
    ensures ReadTextAsWritten(a, k).Some? ==> r == ReadTextAsWritten(a, k).value
    ensures k in a && !a[k].VStr? ==> r == ""
  {
    match Get(a, k, VStr(""))
    case VStr(s) => Lower(s)
    case _ => ""
  }

  /** The corrected source name: "" unless `source` is a mapping with a string `name`. */
  function SourceName(a: Article): (r: string)
    ensures SourceNameAsWritten(a).Some? ==> r == SourceNameAsWritten(a).value
  {
    match Get(a, "source", VDict(map[]))
    case VDict(m) => ReadText(m, "name")
    case _ => ""
  }

  /** The text keywords are searched in: lower-cased title, description and
      content joined by single spaces. */
  function Haystack(a: Article): string {
    ReadText(a, "title") + " " + ReadText(a, "description") + " " + ReadText(a, "content")
  }

  /** Where each read sits in the haystack: title, a space, description, a
      space, content. */
  lemma HaystackLayout(a: Article)
    ensures var h := Haystack(a);
      var t, d, c := ReadText(a, "title"), ReadText(a, "description"), ReadText(a, "content");
      && |h| == |t| + |d| + |c| + 2
      && h[..|t|] == t && h[|t|] == ' '
      && h[|t| + 1..|t| + 1 + |d|] == d && h[|t| + 1 + |d|] == ' '
      && h[|t| + 2 + |d|..] == c
  {
  }

  // ---------------------------------------------------------------------------
  // The three score components
  // ---------------------------------------------------------------------------

  /** How many entries of `keywords`, counted with multiplicity, occur in `text` once lower-cased. */
  function KeywordHits(keywords: seq<string>, text: string): (n: nat)
    ensures n <= |keywords|
  {
    if |keywords| == 0 then 0
    else (if Contains(text, Lower(keywords[0])) then 1 else 0) + KeywordHits(keywords[1..], text)
  }

  /** The category is present, truthy and an exact (case-sensitive) member of the preferred categories. */
  predicate CategoryMatches(a: Article, p: Preferences) {
    "category" in a && Truthy(a["category"]) && a["category"].VStr? && a["category"].s in p.preferredCategories
  }

  /** The lower-cased source name is among the lower-cased preferred sources. */
  predicate SourceMatches(a: Article, p: Preferences) {
    SourceName(a) in LowerAll(p.sources)
  }

  /** `score_article`, corrected so that a null or non-string field reads as "", in half-points. */
  function ScoreArticle(a: Article, p: Preferences): (r: int)
    ensures 0 <= r <= KeywordHalves * |p.keywords| + CategoryHalves + SourceHalves
    ensures r % 2 == 1 <==> SourceMatches(a, p)
  {
    var hits := KeywordHits(p.keywords, Haystack(a));
    var category := if CategoryMatches(a, p) then CategoryHalves else 0;
    var source := if SourceMatches(a, p) then SourceHalves else 0;
    HalfPointParity(hits, category, source);
    KeywordHalves * hits + category + source
  }

  /** Keyword and category points are whole points, so only the source half-point makes a score odd. */
  lemma HalfPointParity(hits: nat, category: int, source: int)
    requires category == 0 || category == CategoryHalves
    requires source == 0 || source == SourceHalves
    ensures 0 <= KeywordHalves * hits + category + source
    ensures (KeywordHalves * hits + category + source) % 2 == source
  {
    var whole := hits + category / 2;
    assert KeywordHalves * hits + category + source == 2 * whole + source;
  }

  /** `score_article` as written: `None` where one of its field reads raises. */
  function ScoreArticleAsWritten(a: Article, p: Preferences): (r: Option<int>)
    ensures r.None? <==> (|| ReadTextAsWritten(a, "title").None?
                          || ReadTextAsWritten(a, "description").None?
                          || ReadTextAsWritten(a, "content").None?
                          || SourceNameAsWritten(a).None?)
    ensures r.Some? ==> r.value == ScoreArticle(a, p)
  {
    var title := ReadTextAsWritten(a, "title");
    var description := ReadTextAsWritten(a, "description");
    var content := ReadTextAsWritten(a, "content");
    var source := SourceNameAsWritten(a);
    if title.None? || description.None? || content.None? || source.None? then None
    else
      var text := title.value + " " + description.value + " " + content.value;
      Some(KeywordHalves * KeywordHits(p.keywords, text)
           + (if CategoryMatches(a, p) then CategoryHalves else 0)
           + (if source.value in LowerAll(p.sources) then SourceHalves else 0))
  }

  /** The scored value stored in the article: half-points as a Python float. */
  function ScoreValue(halves: int): Value {
    VNum(halves as real / 2.0)
  }

  // ---------------------------------------------------------------------------
  // Properties of the score
  // ---------------------------------------------------------------------------

  /** Keyword hits add up over a split keyword list. */
  lemma {:induction false} KeywordHitsAppend(k1: seq<string>, k2: seq<string>, text: string)
    ensures KeywordHits(k1 + k2, text) == KeywordHits(k1, text) + KeywordHits(k2, text)
  {
    if |k1| > 0 {
      assert (k1 + k2)[1..] == k1[1..] + k2;
      KeywordHitsAppend(k1[1..], k2, text);
    } else {
      assert k1 + k2 == k2;
    }
  }

  /** No hit at all exactly when no keyword occurs. */
  lemma {:induction false} KeywordHitsNoneIff(keywords: seq<string>, text: string)
    ensures KeywordHits(keywords, text) == 0 <==> forall i :: 0 <= i < |keywords| ==> !Contains(text, Lower(keywords[i]))
  {
    if |keywords| > 0 {
      KeywordHitsNoneIff(keywords[1..], text);
      assert forall i :: 1 <= i < |keywords| ==> keywords[1..][i - 1] == keywords[i];
    }
  }

  /** Every keyword counts exactly when every keyword occurs. */
  lemma {:induction false} KeywordHitsAllIff(keywords: seq<string>, text: string)
    ensures KeywordHits(keywords, text) == |keywords| <==> forall i :: 0 <= i < |keywords| ==> Contains(text, Lower(keywords[i]))
  {
    if |keywords| > 0 {
      KeywordHitsAllIff(keywords[1..], text);
      assert forall i :: 1 <= i < |keywords| ==> keywords[1..][i - 1] == keywords[i];
    }
  }

  /** An article scores 0 exactly when no keyword occurs, the category does
      not match and the source does not match. */
  lemma ScoreZeroIff(a: Article, p: Preferences)
    ensures ScoreArticle(a, p) == 0 <==>
              (forall i :: 0 <= i < |p.keywords| ==> !Contains(Haystack(a), Lower(p.keywords[i])))
              && !CategoryMatches(a, p) && !SourceMatches(a, p)
  {
    KeywordHitsNoneIff(p.keywords, Haystack(a));
  }

  /** Without keywords, categories or sources to match, an article scores nothing. */
  lemma ScoreNothingToMatch(a: Article, p: Preferences)
    requires p.keywords == [] && p.preferredCategories == [] && p.sources == []
    ensures ScoreArticle(a, p) == 0
  {
  }

  /** Each keyword entry found in the text adds one point (two half-points). */
  lemma ScoreKeywordPoints(a: Article, p: Preferences)
    ensures ScoreArticle(a, p) == ScoreArticle(a, p.(keywords := [])) + KeywordHalves * KeywordHits(p.keywords, Haystack(a))
  {
  }

  /** A matching category adds two points (four half-points), and only then. */
  lemma ScoreCategoryBonus(a: Article, p: Preferences)
    ensures ScoreArticle(a, p) == ScoreArticle(a, p.(preferredCategories := [])) + (if CategoryMatches(a, p) then CategoryHalves else 0)
  {
  }

  /** Removing the article's category takes away exactly the category bonus. */
  lemma ScoreWithoutCategory(a: Article, p: Preferences)
    ensures ScoreArticle(a, p) == ScoreArticle(a - {"category"}, p) + (if CategoryMatches(a, p) then CategoryHalves else 0)
  {
    var b, q := a - {"category"}, p.(preferredCategories := []);
    assert ReadText(b, "title") == ReadText(a, "title");
    assert ReadText(b, "description") == ReadText(a, "description");
    assert ReadText(b, "content") == ReadText(a, "content");
    assert Get(b, "source", VDict(map[])) == Get(a, "source", VDict(map[]));
    ScoreFromReads(b, a, q);
    ScoreCategoryBonus(a, p);
    ScoreCategoryBonus(b, p);
  }

  /** A matching source adds half a point (one half-point), and only then. */
  lemma ScoreSourceBonus(a: Article, p: Preferences)
    ensures ScoreArticle(a, p) == ScoreArticle(a, p.(sources := [])) + (if SourceMatches(a, p) then SourceHalves else 0)
  {
  }

  /** Two articles whose scored fields read alike score alike. */
  lemma ScoreFromReads(a: Article, b: Article, p: Preferences)
    requires Haystack(a) == Haystack(b)
    requires CategoryMatches(a, p) == CategoryMatches(b, p)
    requires SourceName(a) == SourceName(b)
    ensures ScoreArticle(a, p) == ScoreArticle(b, p)
  {
  }

  /** The score only reads title, description, content, category and source. */
  lemma ScoreIgnoresOtherFields(a: Article, p: Preferences, k: string, v: Value)
    requires k !in ScoredFields
    ensures ScoreArticle(a[k := v], p) == ScoreArticle(a, p)
  {
    var b := a[k := v];
    assert ReadText(b, "title") == ReadText(a, "title");
    assert ReadText(b, "description") == ReadText(a, "description");
    assert ReadText(b, "content") == ReadText(a, "content");
    assert Get(b, "source", VDict(map[])) == Get(a, "source", VDict(map[]));
    ScoreFromReads(b, a, p);
  }

  /** The code as written raises on an article whose description is `null`,
      whatever the preferences. */
  lemma NullDescriptionRaises(p: Preferences)
    ensures ScoreArticleAsWritten(map["title" := VStr("Chip news"), "description" := VNull], p) == None
  {
  }

  /** The corrected score treats a `null` text field like a missing one. */
  lemma NullReadsAsMissing(a: Article, p: Preferences, k: string)
    requires k in {"title", "description", "content"}
    ensures ScoreArticle(a[k := VNull], p) == ScoreArticle(a - {k}, p)
  {
    var b := a[k := VNull];
    var c := a - {k};
    assert ReadText(b, "title") == ReadText(c, "title");
    assert ReadText(b, "description") == ReadText(c, "description");
    assert ReadText(b, "content") == ReadText(c, "content");
    assert Get(b, "source", VDict(map[])) == Get(c, "source", VDict(map[]));
    assert Get(b, "category", VNull) == Get(c, "category", VNull);
    ScoreFromReads(b, c, p);
  }

  // ---------------------------------------------------------------------------
  // Ranking: a stable sort on descending score
  // ---------------------------------------------------------------------------

  /** The scores of the articles, position by position. */
  function Scores(articles: seq<Article>, p: Preferences): (sc: seq<int>)
    ensures |sc| == |articles|
    ensures forall i :: 0 <= i < |articles| ==> sc[i] == ScoreArticle(articles[i], p)
  {
    if |articles| == 0 then [] else [ScoreArticle(articles[0], p)] + Scores(articles[1..], p)
  }

  /** Input position `x` goes before position `y`: a higher score, or the
      same score and an earlier position (the sort is stable). */
  predicate Precedes(sc: seq<int>, x: nat, y: nat)
    requires x < |sc| && y < |sc|
  {
    sc[x] > sc[y] || (sc[x] == sc[y] && x < y)
  }

  predicate InRange(order: seq<nat>, n: nat) {
    forall i :: 0 <= i < |order| ==> order[i] < n
  }

  predicate RankedBy(sc: seq<int>, order: seq<nat>)
    requires InRange(order, |sc|)
  {
    forall i, j :: 0 <= i < j < |order| ==> Precedes(sc, order[i], order[j])
  }

  /** The positions `lo`, `lo + 1`, ..., `hi - 1`. */
  function Range(lo: nat, hi: nat): (r: seq<nat>)
    ensures |r| == if lo <= hi then hi - lo else 0
    ensures forall i :: 0 <= i < |r| ==> r[i] == lo + i
    decreases hi - lo
  {
    if lo >= hi then [] else [lo] + Range(lo + 1, hi)
  }

  /** The order `sorted(..., reverse=True)` puts the positions in: a
      permutation of all positions, descending in score, stable among ties. */
  predicate IsStableRanking(sc: seq<int>, order: seq<nat>) {
    |order| == |sc| && InRange(order, |sc|) && multiset(order) == multiset(Range(0, |sc|))
    && RankedBy(sc, order)
  }

  /** Inserts position `x` ahead of the first position of `l` that it precedes. */
  function InsertByScore(sc: seq<int>, x: nat, l: seq<nat>): (r: seq<nat>)
    requires x < |sc| && InRange(l, |sc|)
    ensures |r| == |l| + 1
    ensures InRange(r, |sc|)
    ensures forall i :: 0 <= i < |r| ==> r[i] == x || r[i] in l
    ensures multiset(r) == multiset(l) + multiset{x}
  {
    if |l| == 0 then [x]
    else if sc[l[0]] <= sc[x] then [x] + l
    else
      var rest := InsertByScore(sc, x, l[1..]);
      assert l == [l[0]] + l[1..];
      [l[0]] + rest
  }

  /** Inserting a position smaller than all of a ranking's positions keeps it a ranking. */
  lemma {:induction false} InsertRanked(sc: seq<int>, x: nat, l: seq<nat>)
    requires x < |sc| && InRange(l, |sc|) && RankedBy(sc, l)
    requires forall i :: 0 <= i < |l| ==> x < l[i]
    ensures RankedBy(sc, InsertByScore(sc, x, l))
  {
    if |l| > 0 && sc[l[0]] > sc[x] {
      RankedTail(sc, l);
      InsertRanked(sc, x, l[1..]);
      var rest := InsertByScore(sc, x, l[1..]);
      assert forall j :: 0 <= j < |rest| ==> Precedes(sc, l[0], rest[j]);
    }
  }

  /** Insertion sort of the positions `lo..|sc|`. */
  function RankFrom(sc: seq<int>, lo: nat): (order: seq<nat>)
    requires lo <= |sc|
    ensures |order| == |sc| - lo
    ensures InRange(order, |sc|) && RankedBy(sc, order)
    ensures multiset(order) == multiset(Range(lo, |sc|))
    ensures forall i :: 0 <= i < |order| ==> lo <= order[i]
    decreases |sc| - lo
  {
    if lo == |sc| then []
    else
      var rest := RankFrom(sc, lo + 1);
      assert Range(lo, |sc|) == [lo] + Range(lo + 1, |sc|);
      InsertRanked(sc, lo, rest);
      InsertByScore(sc, lo, rest)
  }

  /** Dropping the head of a ranking leaves a ranking. */
  lemma RankedTail(sc: seq<int>, a: seq<nat>)
    requires |a| > 0 && InRange(a, |sc|) && RankedBy(sc, a)
    ensures InRange(a[1..], |sc|) && RankedBy(sc, a[1..])
  {
    assert forall i :: 0 <= i < |a| - 1 ==> a[1..][i] == a[i + 1];
  }

  lemma MultisetTail<T>(a: seq<T>)
    requires |a| > 0
    ensures multiset(a[1..]) == multiset(a) - multiset{a[0]}
  {
    assert a == [a[0]] + a[1..];
  }

  /** Rankings of the same positions start with the same position. */
  lemma RankingHead(sc: seq<int>, a: seq<nat>, b: seq<nat>)
    requires |a| > 0 && |b| > 0
    requires InRange(a, |sc|) && InRange(b, |sc|)
    requires RankedBy(sc, a) && RankedBy(sc, b)
    requires multiset(a) == multiset(b)
    ensures a[0] == b[0]
  {
    assert b[0] in multiset(a);
    var i :| 0 <= i < |a| && a[i] == b[0];
    assert a[0] in multiset(b);
    var j :| 0 <= j < |b| && b[j] == a[0];
    assert a[0] == b[0] || Precedes(sc, a[0], b[0]);
    assert a[0] == b[0] || Precedes(sc, b[0], a[0]);
  }

  /** Two rankings of the same positions by the same scores coincide: ties
      are broken by position, so the sort has a single possible outcome. */
  lemma {:induction false} RankingUnique(sc: seq<int>, a: seq<nat>, b: seq<nat>)
    requires InRange(a, |sc|) && InRange(b, |sc|)
    requires RankedBy(sc, a) && RankedBy(sc, b)
    requires multiset(a) == multiset(b)
    ensures a == b
    decreases |a|
  {
    assert |a| == |multiset(a)| == |multiset(b)| == |b|;
    if |a| > 0 {
      RankingHead(sc, a, b);
      RankedTail(sc, a);
      RankedTail(sc, b);
      MultisetTail(a);
      MultisetTail(b);
      RankingUnique(sc, a[1..], b[1..]);
      assert a == [a[0]] + a[1..];
      assert b == [b[0]] + b[1..];
    }
  }

  /** The elements of `xs` at the positions `order`, in that order. */
  function Pick<T>(xs: seq<T>, order: seq<nat>): (r: seq<T>)
    requires InRange(order, |xs|)
    ensures |r| == |order|
    ensures forall i :: 0 <= i < |order| ==> r[i] == xs[order[i]]
  {
    if |order| == 0 then [] else [xs[order[0]]] + Pick(xs, order[1..])
  }

  /** `article['relevance_score'] = score`. */
  function Scored(a: Article, p: Preferences): Article {
    a[RelevanceKey := ScoreValue(ScoreArticle(a, p))]
  }

  /** Every article with its score written in, in input order. */
  function ScoredAll(articles: seq<Article>, p: Preferences): (r: seq<Article>)
    ensures |r| == |articles|
    ensures forall i :: 0 <= i < |articles| ==> r[i] == Scored(articles[i], p)
  {
    if |articles| == 0 then [] else [Scored(articles[0], p)] + ScoredAll(articles[1..], p)
  }

  /** `rank_articles`: the scored articles in a stable descending order of score. */
  function RankArticles(articles: seq<Article>, p: Preferences): (r: seq<Article>)
    ensures |r| == |articles|
    ensures exists order :: IsStableRanking(Scores(articles, p), order) && r == Pick(ScoredAll(articles, p), order)
    ensures forall i :: 0 <= i < |r| ==> RelevanceKey in r[i] && r[i][RelevanceKey] == ScoreValue(ScoreArticle(r[i], p))
    ensures forall i, j :: 0 <= i < j < |r| ==> ScoreArticle(r[i], p) >= ScoreArticle(r[j], p)
  {
    var sc := Scores(articles, p);
    var order := RankFrom(sc, 0);
    RankedScoredFacts(articles, p, order);
    assert IsStableRanking(sc, order);
    Pick(ScoredAll(articles, p), order)
  }

  /** Picking scored articles by a ranking of their scores: each carries its
      own score, and the scores do not increase. */
  lemma RankedScoredFacts(articles: seq<Article>, p: Preferences, order: seq<nat>)
    requires InRange(order, |articles|) && RankedBy(Scores(articles, p), order)
    ensures forall i :: 0 <= i < |order| ==>
              var r := Pick(ScoredAll(articles, p), order);
              RelevanceKey in r[i] && r[i][RelevanceKey] == ScoreValue(ScoreArticle(r[i], p))
    ensures forall i, j :: 0 <= i < j < |order| ==>
              var r := Pick(ScoredAll(articles, p), order);
              ScoreArticle(r[i], p) >= ScoreArticle(r[j], p)
  {
    var sc := Scores(articles, p);
    var r := Pick(ScoredAll(articles, p), order);
    forall i | 0 <= i < |order|
      ensures ScoreArticle(r[i], p) == sc[order[i]]
      ensures RelevanceKey in r[i] && r[i][RelevanceKey] == ScoreValue(ScoreArticle(r[i], p))
    {
      var a := articles[order[i]];
      assert r[i] == Scored(a, p);
      ScoredScore(a, p);
    }
    forall i, j | 0 <= i < j < |order|
      ensures sc[order[i]] >= sc[order[j]]
    {
      assert Precedes(sc, order[i], order[j]);
    }
  }

  lemma ScoredScore(a: Article, p: Preferences)
    ensures ScoreArticle(Scored(a, p), p) == ScoreArticle(a, p)
    ensures RelevanceKey in Scored(a, p) && Scored(a, p)[RelevanceKey] == ScoreValue(ScoreArticle(a, p))
  {
    ScoreIgnoresOtherFields(a, p, RelevanceKey, ScoreValue(ScoreArticle(a, p)));
  }

  /** Any stable descending ranking of the positions gives the same result as `rank_articles`. */
  lemma RankArticlesDetermined(articles: seq<Article>, p: Preferences, order: seq<nat>)
    requires IsStableRanking(Scores(articles, p), order)
    ensures RankArticles(articles, p) == Pick(ScoredAll(articles, p), order)
  {
    var sc := Scores(articles, p);
    var r := RankArticles(articles, p);
    var o :| IsStableRanking(sc, o) && r == Pick(ScoredAll(articles, p), o);
    RankingUnique(sc, o, order);
  }

  lemma PickAppend<T>(xs: seq<T>, s: seq<nat>, t: seq<nat>)
    requires InRange(s, |xs|) && InRange(t, |xs|)
    ensures InRange(s + t, |xs|)
    ensures Pick(xs, s + t) == Pick(xs, s) + Pick(xs, t)
  {
  }

  lemma MultisetRemove<T>(t: seq<T>, k: nat)
    requires k < |t|
    ensures multiset(t) == multiset(t[..k] + t[k + 1..]) + multiset{t[k]}
  {
    assert t == t[..k] + [t[k]] + t[k + 1..];
  }

  /** Picking by two permutations of the same positions picks the same elements. */
  lemma {:induction false} PickPermutes<T>(xs: seq<T>, s: seq<nat>, t: seq<nat>)
    requires InRange(s, |xs|) && InRange(t, |xs|)
    requires multiset(s) == multiset(t)
    ensures multiset(Pick(xs, s)) == multiset(Pick(xs, t))
    decreases |s|
  {
    assert |s| == |multiset(s)| == |multiset(t)| == |t|;
    if |s| > 0 {
      assert s[0] in multiset(t);
      var k :| 0 <= k < |t| && t[k] == s[0];
      var t' := t[..k] + t[k + 1..];
      PermutesTail(xs, s, t, k);
      PickPermutes(xs, s[1..], t');
      PickRemove(xs, t, k);
      PickHead(xs, s);
    }
  }

  /** Taking the head of `s` and the matching position `k` of `t` out leaves two permutations. */
  lemma PermutesTail<T>(xs: seq<T>, s: seq<nat>, t: seq<nat>, k: nat)
    requires InRange(s, |xs|) && InRange(t, |xs|) && multiset(s) == multiset(t)
    requires |s| > 0 && k < |t| && t[k] == s[0]
    ensures InRange(s[1..], |xs|) && InRange(t[..k] + t[k + 1..], |xs|)
    ensures multiset(s[1..]) == multiset(t[..k] + t[k + 1..])
  {
    MultisetRemove(t, k);
    MultisetTail(s);
    PickRemove(xs, t, k);
  }

  lemma PickHead<T>(xs: seq<T>, s: seq<nat>)
    requires InRange(s, |xs|) && |s| > 0
    ensures InRange(s[1..], |xs|)
    ensures multiset(Pick(xs, s)) == multiset(Pick(xs, s[1..])) + multiset{xs[s[0]]}
  {
    assert s == [s[0]] + s[1..];
    PickAppend(xs, [s[0]], s[1..]);
  }

  /** Taking position `k` out of `t` takes its element out of the picked ones. */
  lemma PickRemove<T>(xs: seq<T>, t: seq<nat>, k: nat)
    requires InRange(t, |xs|) && k < |t|
    ensures InRange(t[..k] + t[k + 1..], |xs|)
    ensures multiset(Pick(xs, t)) == multiset(Pick(xs, t[..k] + t[k + 1..])) + multiset{xs[t[k]]}
  {
    var u := t[..k] + t[k + 1..];
    forall i | 0 <= i < |u|
      ensures u[i] == if i < k then t[i] else t[i + 1]
    {
    }
    var picked := Pick(xs, t);
    var rest := picked[..k] + picked[k + 1..];
    assert Pick(xs, u) == rest by {
      forall i | 0 <= i < |u|
        ensures Pick(xs, u)[i] == rest[i]
      {
        if i < k {
          assert rest[i] == picked[i];
        } else {
          assert rest[i] == picked[i + 1];
        }
      }
    }
    MultisetRemove(picked, k);
  }

  /** The ranking is a permutation of the input articles, each with its score written in. */
  lemma RankArticlesPermutes(articles: seq<Article>, p: Preferences)
    ensures multiset(RankArticles(articles, p)) == multiset(ScoredAll(articles, p))
  {
    var sc := Scores(articles, p);
    var xs := ScoredAll(articles, p);
    var order := RankFrom(sc, 0);
    assert IsStableRanking(sc, order);
    RankArticlesDetermined(articles, p, order);
    PickRange(xs);
    PickPermutes(xs, order, Range(0, |xs|));
  }

  /** Picking every position in order gives the sequence itself. */
  lemma PickRange<T>(xs: seq<T>)
    ensures InRange(Range(0, |xs|), |xs|)
    ensures Pick(xs, Range(0, |xs|)) == xs
  {
  }

  /** `generate_recommendations`: the first `n` articles of the ranking, or all of them. */
  function GenerateRecommendations(articles: seq<Article>, p: Preferences, n: nat): (r: seq<Article>)
    ensures |r| == if n < |articles| then n else |articles|
    ensures r == RankArticles(articles, p)[..|r|]
  {
    var ranked := RankArticles(articles, p);
    if n < |ranked| then ranked[..n] else ranked
  }

  /** No article left out of the recommendations scores higher than one kept. */
  lemma GenerateKeepsBest(articles: seq<Article>, p: Preferences, n: nat, i: nat, j: nat)
    requires i < n <= j < |articles|
    ensures ScoreArticle(GenerateRecommendations(articles, p, n)[i], p) >= ScoreArticle(RankArticles(articles, p)[j], p)
  {
    var ranked := RankArticles(articles, p);
    assert GenerateRecommendations(articles, p, n)[i] == ranked[i];
  }

  /** Preferences built from a payload without `preferred_categories` (for
      instance one that names its categories under `topics`, which the record
      does not declare) never award the category bonus. */
  lemma NoCategoriesNoBonus(d: Dict, a: Article)
    requires "preferred_categories" !in d && PreferencesFromDict(d).Some?
    ensures !CategoryMatches(a, PreferencesFromDict(d).value)
  {
  }
}

=== FILE: formatter.dfy ===
/** `ResponseFormatter` of `responses/formatter.py`: each ranked article
    dictionary becomes an `ArticleRecommendation`, field by field with
    defaults, and a record that cannot be built is replaced by a placeholder. */
module Formatter {
  import opened Wrappers
  import opened Values
  import opened Models

  const ErrorTitle := "Error Formatting Article"
  const ErrorSummary := "Could not format article details."
  const NotAvailable := "N/A"

  /** The eight article fields the formatter reads. */
  const FormattedFields: set<string> :=
    {"title", "url", "source", "summary", "keywords", "sentiment", "category", "relevance_score"}

  /** `article_data.get('source', {}).get('name', 'N/A')`: `None` where the
      field is present but is not a mapping, so `.get` raises. */
  function SourceNameField(a: Dict): (r: Option<Value>)
    ensures r.None? <==> "source" in a && !a["source"].VDict?
    ensures "source" !in a ==> r == Some(VStr(NotAvailable))
    ensures r.Some? && "source" in a ==> r.value == Get(a["source"].fields, "name", VStr(NotAvailable))
  {
    if "source" !in a then Some(VStr(NotAvailable))
    else match a["source"]
      case VDict(m) => Some(Get(m, "name", VStr(NotAvailable)))
      case _ => None
  }

  /** Field `k` is absent, `null` or a string: an `Optional[str]`. */
  predicate OptionalTextAt(a: Dict, k: string) {
    k in a ==> a[k].VNull? || a[k].VStr?
  }

  /** Every field the record is built from has its declared type: title and
      url absent or strings, `source` absent or a mapping whose `name` is
      absent or a string, summary, sentiment and category optional strings,
      keywords absent, `null` or a list of strings, and the score absent,
      `null`, an `int` or a `float`. */
  predicate WellTyped(a: Dict) {
    && ("title" in a ==> a["title"].VStr?)
    && ("url" in a ==> a["url"].VStr?)
    && ("source" in a ==> a["source"].VDict? && OptionalNameAt(a["source"].fields))
    && OptionalTextAt(a, "summary") && OptionalTextAt(a, "sentiment") && OptionalTextAt(a, "category")
    && ("keywords" in a ==> a["keywords"].VNull? || (a["keywords"].VList? && StringItems(a["keywords"].items)))
    && ("relevance_score" in a ==>
          a["relevance_score"].VNull? || a["relevance_score"].VInt? || a["relevance_score"].VNum?)
  }

  predicate OptionalNameAt(source: Dict) {
    "name" in source ==> source["name"].VStr?
  }

  predicate StringItems(items: seq<Value>) {
    forall i :: 0 <= i < |items| ==> items[i].VStr?
  }

  /** The body of the `try`: `None` where it raises. */
  function FormatFields(a: Dict): (r: Option<ArticleRecommendation>)
    ensures r.Some? <==> WellTyped(a)
    ensures r.Some? ==> SourceNameField(a).Some?
    ensures r.Some? ==> VStr(r.value.title) == Get(a, "title", VStr(NotAvailable))
    ensures r.Some? ==> VStr(r.value.url) == Get(a, "url", VStr(""))
    ensures r.Some? ==> VStr(r.value.source) == SourceNameField(a).value
    ensures r.Some? ==> TextValue(r.value.summary) == Get(a, "summary", VNull)
    ensures r.Some? ==> TextValue(r.value.sentiment) == Get(a, "sentiment", VNull)
    ensures r.Some? ==> TextValue(r.value.category) == Get(a, "category", VNull)
    ensures r.Some? ==> AsOptionalTexts(Get(a, "keywords", VNull)) == Some(r.value.keywords)
    ensures r.Some? ==> AsOptionalNumber(Get(a, "relevance_score", VNull)) == Some(r.value.relevanceScore)
  {
    match SourceNameField(a)
    case None => None
    case Some(source) =>
      MakeRecommendation(Get(a, "title", VStr(NotAvailable)), Get(a, "url", VStr("")), source,
                         Get(a, "summary", VNull), Get(a, "keywords", VNull), Get(a, "sentiment", VNull),
                         Get(a, "category", VNull), Get(a, "relevance_score", VNull))
  }

  /** The `except` branch: a placeholder keeping the url, which itself raises
      when the url is not a string. */
  function Placeholder(a: Dict): (r: Option<ArticleRecommendation>)
    ensures r.Some? <==> Get(a, "url", VStr("")).VStr?
    ensures r.Some? ==> r.value.title == ErrorTitle && VStr(r.value.url) == Get(a, "url", VStr(""))
    ensures r.Some? ==> r.value.source == NotAvailable && r.value.summary == Some(ErrorSummary)
    ensures r.Some? ==> r.value.keywords.None? && r.value.sentiment.None? && r.value.category.None?
    ensures r.Some? ==> r.value.relevanceScore.None?
  {
    match Get(a, "url", VStr(""))
    case VStr(url) => Some(ArticleRecommendation(ErrorTitle, url, NotAvailable, Some(ErrorSummary), None, None, None, None))
    case _ => None
  }

  /** `format_single_article`: the record built from the fields, or the
      placeholder when that fails; `None` only when both fail and the
      exception escapes. */
  function FormatSingleArticle(a: Dict): (r: Option<ArticleRecommendation>)
    ensures r.None? <==> FormatFields(a).None? && !Get(a, "url", VStr("")).VStr?
    ensures FormatFields(a).Some? ==> r == FormatFields(a)
    ensures FormatFields(a).None? ==> r == Placeholder(a)
  {
    if FormatFields(a).Some? then FormatFields(a) else Placeholder(a)
  }

  /** An article whose fields all have their declared types is copied field
      by field, with "N/A", "" and "N/A" for a missing title, url and source
      name, and `None` for each missing optional field. */
  lemma WellTypedCopied(a: Dict)
    requires WellTyped(a)
    ensures FormatSingleArticle(a) == FormatFields(a) && FormatFields(a).Some?
    ensures var r := FormatSingleArticle(a).value;
      && r.title == (if "title" in a then a["title"].s else NotAvailable)
      && r.url == (if "url" in a then a["url"].s else "")
      && ("summary" !in a ==> r.summary.None?) && ("keywords" !in a ==> r.keywords.None?)
      && ("sentiment" !in a ==> r.sentiment.None?) && ("category" !in a ==> r.category.None?)
      && ("relevance_score" !in a ==> r.relevanceScore.None?)
      && ("summary" in a ==> TextValue(r.summary) == a["summary"])
      && ("keywords" in a ==> TextsValue(r.keywords) == a["keywords"])
  {
    var r := FormatSingleArticle(a).value;
    if "keywords" in a {
      TextsValueRoundTrip(r.keywords);
      if r.keywords.Some? {
        assert AsStrings(a["keywords"]) == r.keywords;
      }
    }
  }

  /** Title, url and source name alone make a record with every optional field `None`. */
  lemma MinimalArticle(title: string, url: string, name: string)
    ensures FormatSingleArticle(map["title" := VStr(title), "url" := VStr(url),
                                    "source" := VDict(map["name" := VStr(name)])])
         == Some(BareRecommendation(title, url, name))
  {
  }

  /** A `source` mapping without `name` gives "N/A" as the source. */
  lemma SourceWithoutName(a: Dict)
    requires "source" in a && a["source"].VDict? && "name" !in a["source"].fields
    requires WellTyped(a)
    ensures FormatSingleArticle(a).value.source == NotAvailable
  {
  }

  /** Fields other than the eight never influence the record. */
  lemma OtherFieldsIgnored(a: Dict, k: string, v: Value)
    requires k !in FormattedFields
    ensures FormatSingleArticle(a[k := v]) == FormatSingleArticle(a)
  {
    var b := a[k := v];
    assert forall f :: f in FormattedFields ==> Get(b, f, VNull) == Get(a, f, VNull);
    assert Get(b, "title", VStr(NotAvailable)) == Get(a, "title", VStr(NotAvailable));
    assert Get(b, "url", VStr("")) == Get(a, "url", VStr(""));
    assert SourceNameField(b) == SourceNameField(a);
  }

  /** A `source` that is present but not a mapping (`None`, a string, ...) takes the placeholder path. */
  lemma SourceNotMappingPlaceholder(a: Dict)
    requires "source" in a && !a["source"].VDict?
    ensures FormatSingleArticle(a) == Placeholder(a)
  {
  }

  /** A field of the wrong type (a string score, say) takes the placeholder path and keeps the url. */
  lemma InvalidFieldPlaceholder(a: Dict)
    requires "relevance_score" in a && a["relevance_score"].VStr?
    requires "url" in a && a["url"].VStr?
    ensures FormatSingleArticle(a) == Some(ArticleRecommendation(ErrorTitle, a["url"].s, NotAvailable,
                                                                Some(ErrorSummary), None, None, None, None))
  {
  }

  /** `format_recommendation_list`: every article formatted, in order; `None`
      when formatting one of them raises. */
  function FormatRecommendationList(articles: seq<Dict>): (r: Option<seq<ArticleRecommendation>>)
    ensures r.Some? <==> forall i :: 0 <= i < |articles| ==> FormatSingleArticle(articles[i]).Some?
    ensures r.Some? ==> |r.value| == |articles|
    ensures r.Some? ==> forall i :: 0 <= i < |articles| ==> r.value[i] == FormatSingleArticle(articles[i]).value
  {
    if |articles| == 0 then Some([])
    else
      match FormatSingleArticle(articles[0])
      case None => None
      case Some(first) =>
        match FormatRecommendationList(articles[1..])
        case None => None
        case Some(rest) => Some([first] + rest)
  }

  /** As long as every url is a string, no article is dropped: a bad one becomes a placeholder in its place. */
  lemma NothingDropped(articles: seq<Dict>)
    requires forall i :: 0 <= i < |articles| ==> Get(articles[i], "url", VStr("")).VStr?
    ensures FormatRecommendationList(articles).Some?
    ensures |FormatRecommendationList(articles).value| == |articles|
  {
  }

  /** Formatting a concatenation formats the parts. */
  lemma FormatAppend(xs: seq<Dict>, ys: seq<Dict>)
    requires FormatRecommendationList(xs).Some? && FormatRecommendationList(ys).Some?
    ensures FormatRecommendationList(xs + ys) == Some(FormatRecommendationList(xs).value + FormatRecommendationList(ys).value)
  {
    var zs := xs + ys;
    assert forall i :: 0 <= i < |zs| ==> FormatSingleArticle(zs[i]).Some? by {
      forall i | 0 <= i < |zs| ensures FormatSingleArticle(zs[i]).Some? {
        if i < |xs| {
          assert zs[i] == xs[i];
        } else {
          assert zs[i] == ys[i - |xs|];
        }
      }
    }
    var r := FormatRecommendationList(zs).value;
    var e := FormatRecommendationList(xs).value + FormatRecommendationList(ys).value;
    assert |r| == |e|;
    forall i | 0 <= i < |r| ensures r[i] == e[i] {
      if i < |xs| {
        assert zs[i] == xs[i];
      } else {
        assert zs[i] == ys[i - |xs|];
      }
    }
    assert r == e;
  }
}

=== FILE: llm_analyzer.dfy ===
/** `LlmAnalyzer` of `analysis/llm_analyzer.py`: whether a client exists,
    the reduction of a chat completion to its first choice, the
    post-processing each of the four analyses applies to the reply, and the
    cache key each analysis is memoised under. The language model is a
    function parameter from the request to its response; the SHA-256 digest
    is a function parameter as well, of which only its fixed 64-character
    hexadecimal length is assumed. */
module LlmAnalyzer {
  import opened Wrappers
  import opened Strings
  import opened Values
  import opened TtlCache

  const PlaceholderKey := "YOUR_OPENAI_API_KEY"
  const DefaultNumKeywords := 5
  const DefaultMaxLength := 100
  const DefaultCategories: seq<string> := ["technology", "business", "sports", "entertainment", "health", "science", "world"]
  const Sentiments: set<string> := {"positive", "negative", "neutral"}

  // ---------------------------------------------------------------------------
  // Construction and the model call
  // ---------------------------------------------------------------------------

  /** An analyzer either holds a working client or does not (`self.client is None`). */
  datatype Analyzer = Analyzer(hasClient: bool)

  /** `LlmAnalyzer(api_key)`: no client for an empty key, for the placeholder
      key, or when the client constructor raises (`clientBuilds` is false). */
  function NewAnalyzer(apiKey: string, clientBuilds: bool): (r: Analyzer)
    ensures r.hasClient ==> apiKey != "" && apiKey != PlaceholderKey
    ensures apiKey != "" && apiKey != PlaceholderKey ==> (r.hasClient <==> clientBuilds)
  {
    if apiKey == "" || apiKey == PlaceholderKey then Analyzer(false) else Analyzer(clientBuilds)
  }

  /** One cached analysis with its arguments. The prompt sent to the model is
      built from these. */
  datatype Call =
    | ExtractKeywords(text: string, numKeywords: int)
    | GenerateSummary(text: string, maxLength: int)
    | AnalyzeSentiment(text: string)
    | CategorizeArticle(text: string, categories: seq<string>)

  /** What the chat-completion request yields: the choices, each with a
      message content that may be missing, or a raised exception. */
  datatype LlmResponse = Completion(choices: seq<Option<string>>) | ApiError | UnexpectedError

  type Llm = Call -> LlmResponse

  /** The content of the first choice with surrounding whitespace stripped;
      nothing for an error, for no choices, or for a missing content (the
      `.strip()` on `None` raises and is caught). */
  function FirstChoice(resp: LlmResponse): (r: Option<string>)
    ensures r.Some? <==> resp.Completion? && |resp.choices| > 0 && resp.choices[0].Some?
    ensures r.Some? ==> Trimmed(r.value) && exists i :: PaddedBy(resp.choices[0].value, r.value, i)
  {
    if resp.Completion? && |resp.choices| > 0 && resp.choices[0].Some? then Some(Strip(resp.choices[0].value))
    else None
  }

  /** `_make_llm_call`: without a client nothing is requested and the reply is `None`. */
  function MakeLlmCall(an: Analyzer, llm: Llm, call: Call): (r: Option<string>)
    ensures !an.hasClient ==> r.None?
    ensures an.hasClient ==> r == FirstChoice(llm(call))
  {
    if an.hasClient then FirstChoice(llm(call)) else None
  }

  // ---------------------------------------------------------------------------
  // Post-processing of the reply
  // ---------------------------------------------------------------------------

  /** Each piece with surrounding whitespace stripped. */
  function StripAll(pieces: seq<string>): (r: seq<string>)
    ensures |r| == |pieces|
    ensures forall i :: 0 <= i < |pieces| ==> r[i] == Strip(pieces[i])
    ensures forall w :: w in r ==> Trimmed(w)
  {
    if |pieces| == 0 then [] else [Strip(pieces[0])] + StripAll(pieces[1..])
  }

  /** The words that are not empty, in order. */
  function DropEmpty(ws: seq<string>): (r: seq<string>)
    ensures |r| <= |ws|
    ensures forall w :: w in r <==> w in ws && w != ""
  {
    if |ws| == 0 then []
    else
      assert ws == [ws[0]] + ws[1..];
      (if ws[0] == "" then [] else [ws[0]]) + DropEmpty(ws[1..])
  }

  /** `[kw.strip() for kw in pieces if kw.strip()]`: every piece that is not
      blank contributes its stripped form, and nothing else appears. */
  function KeepStripped(pieces: seq<string>): (r: seq<string>)
    ensures |r| <= |pieces|
    ensures forall i :: 0 <= i < |r| ==> r[i] != "" && Trimmed(r[i])
    ensures forall w :: w in r <==> w in StripAll(pieces) && w != ""
  {
    var r := DropEmpty(StripAll(pieces));
    assert forall i :: 0 <= i < |r| ==> r[i] in r;
    r
  }

  lemma {:induction false} StripAllAppend(a: seq<string>, b: seq<string>)
    ensures StripAll(a + b) == StripAll(a) + StripAll(b)
    decreases |a|
  {
    if |a| == 0 {
      assert a + b == b;
    } else {
      var head := [Strip(a[0])];
      assert (a + b)[0] == a[0];
      assert (a + b)[1..] == a[1..] + b;
      StripAllAppend(a[1..], b);
      assert head + (StripAll(a[1..]) + StripAll(b)) == (head + StripAll(a[1..])) + StripAll(b);
    }
  }

  lemma {:induction false} DropEmptyAppend(a: seq<string>, b: seq<string>)
    ensures DropEmpty(a + b) == DropEmpty(a) + DropEmpty(b)
    decreases |a|
  {
    if |a| == 0 {
      assert a + b == b;
    } else {
      var head: seq<string> := if a[0] == "" then [] else [a[0]];
      assert (a + b)[0] == a[0];
      assert (a + b)[1..] == a[1..] + b;
      DropEmptyAppend(a[1..], b);
      assert head + (DropEmpty(a[1..]) + DropEmpty(b)) == (head + DropEmpty(a[1..])) + DropEmpty(b);
    }
  }

  /** Keeping distributes over concatenation, so the kept words come in the
      order of their pieces. */
  lemma KeepStrippedAppend(a: seq<string>, b: seq<string>)
    ensures KeepStripped(a + b) == KeepStripped(a) + KeepStripped(b)
  {
    StripAllAppend(a, b);
    DropEmptyAppend(StripAll(a), StripAll(b));
  }

  /** Keywords from a reply: the comma-separated pieces, stripped, empty ones
      dropped; no reply or an empty one gives no keywords. */
  function ParseKeywords(reply: Option<string>): (r: seq<string>)
    ensures forall i :: 0 <= i < |r| ==> r[i] != "" && Trimmed(r[i])
    ensures reply.None? || reply.value == "" ==> r == []
    ensures reply.Some? && reply.value != "" ==>
              forall w :: w in r <==> w in StripAll(Split(reply.value, ',')) && w != ""
  {
    if reply.Some? && reply.value != "" then KeepStripped(Split(reply.value, ',')) else []
  }

  /** Pieces that are already clean pass through unchanged. */
  lemma KeepStrippedClean(ws: seq<string>)
    requires forall i :: 0 <= i < |ws| ==> ws[i] != "" && Trimmed(ws[i])
    ensures KeepStripped(ws) == ws
  {
    forall i | 0 <= i < |ws|
      ensures StripAll(ws)[i] == ws[i]
    {
      StripTrimmed(ws[i]);
    }
    assert StripAll(ws) == ws;
    DropEmptyClean(ws);
  }

  lemma {:induction false} DropEmptyClean(ws: seq<string>)
    requires forall i :: 0 <= i < |ws| ==> ws[i] != ""
    ensures DropEmpty(ws) == ws
  {
    if |ws| > 0 {
      DropEmptyClean(ws[1..]);
      assert ws == [ws[0]] + ws[1..];
    }
  }

  /** A reply listing clean keywords separated by commas parses back to exactly those keywords. */
  lemma ParseKeywordsRoundTrip(ws: seq<string>)
    requires |ws| >= 1
    requires forall i :: 0 <= i < |ws| ==> ws[i] != "" && Trimmed(ws[i]) && ',' !in ws[i]
    ensures ParseKeywords(Some(Join(ws, ","))) == ws
  {
    var s := Join(ws, ",");
    assert s[..|ws[0]|] == ws[0];
    assert s != "";
    SplitJoin(ws, ',');
    assert Split(s, ',') == ws;
    KeepStrippedClean(ws);
  }

  /** The lower-cased reply when it names one of the three sentiments. */
  function ValidSentiment(reply: Option<string>): (r: Option<string>)
    ensures r.Some? <==> reply.Some? && Lower(reply.value) in Sentiments
    ensures r.Some? ==> r.value in Sentiments && r.value == Lower(reply.value)
  {
    if reply.Some? && reply.value != "" && Lower(reply.value) in Sentiments then Some(Lower(reply.value)) else None
  }

  /** The lower-cased reply when it names one of `categories`, compared without case. */
  function ValidCategory(reply: Option<string>, categories: seq<string>): (r: Option<string>)
    ensures r.Some? <==> reply.Some? && reply.value != "" && Lower(reply.value) in LowerAll(categories)
    ensures r.Some? ==> r.value == Lower(reply.value)
    ensures r.Some? ==> exists i :: 0 <= i < |categories| && r.value == Lower(categories[i])
  {
    if reply.Some? && reply.value != "" && Lower(reply.value) in LowerAll(categories) then
      Some(Lower(reply.value))
    else None
  }

  /** The Python object a call returns when it runs: `None` without a
      client, otherwise the post-processed reply. */
  function Outcome(an: Analyzer, llm: Llm, call: Call): (r: Value)
    ensures !an.hasClient ==> r == VNull
    ensures an.hasClient && call.ExtractKeywords? ==> AsStrings(r) == Some(ParseKeywords(MakeLlmCall(an, llm, call)))
    ensures call.GenerateSummary? ==> r == VNull || (r.VStr? && Trimmed(r.s))
    ensures an.hasClient && call.GenerateSummary? ==> r == TextValue(MakeLlmCall(an, llm, call))
    ensures call.AnalyzeSentiment? ==> r == VNull || (r.VStr? && r.s in Sentiments)
    ensures an.hasClient && call.AnalyzeSentiment? ==>
              var reply := MakeLlmCall(an, llm, call);
              && (r != VNull <==> reply.Some? && Lower(reply.value) in Sentiments)
              && (r != VNull ==> r == VStr(Lower(reply.value)))
    ensures call.CategorizeArticle? ==> r == VNull || (r.VStr? && r.s in LowerAll(call.categories))
    ensures an.hasClient && call.CategorizeArticle? ==>
              var reply := MakeLlmCall(an, llm, call);
              && (r != VNull <==> reply.Some? && reply.value != "" && Lower(reply.value) in LowerAll(call.categories))
              && (r != VNull ==> r == VStr(Lower(reply.value)))
  {
    if !an.hasClient then VNull
    else
      var reply := MakeLlmCall(an, llm, call);
      match call
      case ExtractKeywords(_, _) =>
        TextsValueRoundTrip(Some(ParseKeywords(reply)));
        TextsValue(Some(ParseKeywords(reply)))
      case GenerateSummary(_, _) => TextValue(reply)
      case AnalyzeSentiment(_) => TextValue(ValidSentiment(reply))
      case CategorizeArticle(_, categories) => TextValue(ValidCategory(reply, categories))
  }

  /** The outcome depends on the model only through the stripped reply:
      two models that reply alike produce the same result. */
  lemma OutcomeDeterminedByReply(an: Analyzer, llm1: Llm, llm2: Llm, call: Call)
    requires MakeLlmCall(an, llm1, call) == MakeLlmCall(an, llm2, call)
    ensures Outcome(an, llm1, call) == Outcome(an, llm2, call)
  {
  }

  // ---------------------------------------------------------------------------
  // Cache keys
  // ---------------------------------------------------------------------------

  /** The text digest (`hashlib.sha256(text.encode()).hexdigest()`). */
  type Digest = string -> string

  /** Every digest is 64 hexadecimal characters long. */
  ghost predicate HexDigest(h: Digest) {
    forall t :: |h(t)| == 64
  }

  /** `generate_cache_key(func_name, text)`: the name, a colon, the digest. */
  function CacheKey(h: Digest, name: string, text: string): (k: string)
    requires HexDigest(h)
    ensures |k| == |name| + 65 && k[..|name|] == name && k[|name|] == ':'
    ensures k[|name| + 1..] == h(text)
  {
    name + ":" + h(text)
  }

  function CallName(call: Call): string {
    match call
    case ExtractKeywords(_, _) => "extract_keywords"
    case GenerateSummary(_, _) => "generate_summary"
    case AnalyzeSentiment(_) => "analyze_sentiment"
    case CategorizeArticle(_, _) => "categorize_article"
  }

  /** The text each decorator hashes: the article text with the extra
      argument appended as written (`str(n)`, or the sorted categories
      joined without a separator). */
  function KeyText(call: Call): (t: string)
    ensures |t| >= |call.text| && t[..|call.text|] == call.text
    ensures call.ExtractKeywords? ==> t[|call.text|..] == IntToString(call.numKeywords)
    ensures call.GenerateSummary? ==> t[|call.text|..] == IntToString(call.maxLength)
    ensures call.AnalyzeSentiment? ==> t == call.text
    ensures call.CategorizeArticle? ==> t[|call.text|..] == Join(SortStrings(call.categories), "")
  {
    match call
    case ExtractKeywords(text, n) => text + IntToString(n)
    case GenerateSummary(text, m) => text + IntToString(m)
    case AnalyzeSentiment(text) => text
    case CategorizeArticle(text, categories) => text + Join(SortStrings(categories), "")
  }

  /** The entry an analysis is memoised under: its function's name and the
      digest of its key text. */
  function Key(h: Digest, call: Call): (k: string)
    requires HexDigest(h)
    ensures |k| == |CallName(call)| + 65 && k[..|CallName(call)|] == CallName(call)
    ensures k[|CallName(call)| + 1..] == h(KeyText(call))
  {
    CacheKey(h, CallName(call), KeyText(call))
  }

  /** Keys of different functions never meet, whatever the texts. */
  lemma DistinctNamesDistinctKeys(h: Digest, n1: string, t1: string, n2: string, t2: string)
    requires HexDigest(h) && n1 != n2
    ensures CacheKey(h, n1, t1) != CacheKey(h, n2, t2)
  {
    var k1, k2 := CacheKey(h, n1, t1), CacheKey(h, n2, t2);
    if |n1| == |n2| {
      assert k1[..|n1|] != k2[..|n2|];
    }
  }

  /** The key determines the function name and the digest of the text; two
      texts share an entry only when their digests collide. */
  lemma KeyDeterminesDigest(h: Digest, n1: string, t1: string, n2: string, t2: string)
    requires HexDigest(h)
    requires CacheKey(h, n1, t1) == CacheKey(h, n2, t2)
    ensures n1 == n2 && h(t1) == h(t2)
  {
    var k := CacheKey(h, n1, t1);
    assert |n1| == |n2|;
    assert n1 == k[..|n1|] == n2;
  }

  /** Two different analyses of the same article never share an entry. */
  lemma DifferentAnalysesDifferentKeys(h: Digest, c1: Call, c2: Call)
    requires HexDigest(h) && c1.text == c2.text
    requires c1.ExtractKeywords? != c2.ExtractKeywords? || c1.GenerateSummary? != c2.GenerateSummary?
          || c1.AnalyzeSentiment? != c2.AnalyzeSentiment?
    ensures Key(h, c1) != Key(h, c2)
  {
    DistinctNamesDistinctKeys(h, CallName(c1), KeyText(c1), CallName(c2), KeyText(c2));
  }

  /** The category key does not depend on the order the categories are listed in. */
  lemma CategoryKeyIgnoresOrder(h: Digest, text: string, a: seq<string>, b: seq<string>)
    requires HexDigest(h) && multiset(a) == multiset(b)
    ensures Key(h, CategorizeArticle(text, a)) == Key(h, CategorizeArticle(text, b))
  {
    SortIgnoresOrder(a, b);
  }

  /** Nor does the set of accepted categories. */
  lemma CategoryCheckIgnoresOrder(reply: Option<string>, a: seq<string>, b: seq<string>)
    requires multiset(a) == multiset(b)
    ensures ValidCategory(reply, a) == ValidCategory(reply, b)
  {
    forall x | x in LowerAll(a) ensures x in LowerAll(b) {
      LowerMember(x, a, b);
    }
    forall x | x in LowerAll(b) ensures x in LowerAll(a) {
      LowerMember(x, b, a);
    }
  }

  lemma LowerMember(x: string, a: seq<string>, b: seq<string>)
    requires multiset(a) == multiset(b) && x in LowerAll(a)
    ensures x in LowerAll(b)
  {
    var i :| 0 <= i < |a| && LowerAll(a)[i] == x;
    assert a[i] in multiset(b);
    var j :| 0 <= j < |b| && b[j] == a[i];
    assert LowerAll(b)[j] == x;
  }

  /** The extra argument is appended without a separator, so keyword
      requests for ("a1", 5) and ("a", 15) share one entry. */
  lemma KeywordKeysCollide(h: Digest)
    requires HexDigest(h)
    ensures ExtractKeywords("a1", 5) != ExtractKeywords("a", 15)
    ensures Key(h, ExtractKeywords("a1", 5)) == Key(h, ExtractKeywords("a", 15))
  {
    assert IntToString(5) == "5";
    assert IntToString(15) == "15";
    assert KeyText(ExtractKeywords("a1", 5)) == "a15" == KeyText(ExtractKeywords("a", 15));
  }

  // ---------------------------------------------------------------------------
  // The cached analyses
  // ---------------------------------------------------------------------------

  /** The module-level cache shared by every analyzer instance. */
  type LlmCache = Cache<string, Value>

  function NewAnalysisCache(): (c: LlmCache)
    ensures Valid(c) && c.maxSize == AnalysisMaxSize && c.ttl == AnalysisTtl && c.entries == map[]
  {
    Empty(AnalysisMaxSize, AnalysisTtl)
  }

  /** One of the four public methods under its `@cached` decorator. A live
      entry under the call's key is returned as is; otherwise the call runs
      (asking the model only when there is a client) and its result, `None`
      included, is stored. `asked` tells whether a request reached the model. */
  method Analyze(an: Analyzer, cache: LlmCache, h: Digest, llm: Llm, call: Call, now: int)
    returns (r: Value, cache': LlmCache, asked: bool)
    requires Valid(cache) && HexDigest(h)
    ensures Valid(cache') && cache'.maxSize == cache.maxSize && cache'.ttl == cache.ttl
    ensures Lookup(cache, Key(h, call), now).Some? ==> r == Lookup(cache, Key(h, call), now).value && cache' == cache
    ensures Lookup(cache, Key(h, call), now).None? ==> r == Outcome(an, llm, call)
    ensures Lookup(cache, Key(h, call), now).None? ==> Key(h, call) in cache'.entries && cache'.entries[Key(h, call)] == Entry(r, now)
    ensures asked <==> Lookup(cache, Key(h, call), now).None? && an.hasClient
    ensures Lookup(cache', Key(h, call), now) == Some(r)
    ensures forall k :: k != Key(h, call) && Lookup(cache', k, now).Some? ==> Lookup(cache', k, now) == Lookup(cache, k, now)
  {
    var key := Key(h, call);
    var called;
    r, cache', called := Memoize(cache, key, now, Outcome(an, llm, call));
    asked := called && an.hasClient;
  }

  /** Asking again before the entry expires returns the first answer without
      a request, however the model would answer the second time. */
  method RepeatAnalysisCached(an: Analyzer, cache: LlmCache, h: Digest, llm1: Llm, llm2: Llm, call: Call, t1: int, t2: int)
    returns (r1: Value, r2: Value, asked2: bool)
    requires Valid(cache) && HexDigest(h)
    requires Lookup(cache, Key(h, call), t1).None? && t1 <= t2 < t1 + cache.ttl
    ensures r1 == Outcome(an, llm1, call)
    ensures r2 == r1 && !asked2
  {
    var c1, c2, asked1;
    r1, c1, asked1 := Analyze(an, cache, h, llm1, call, t1);
    r2, c2, asked2 := Analyze(an, c1, h, llm2, call, t2);
  }

  /** An entry stored for one analysis never answers a different one. */
  method OtherAnalysisRuns(an: Analyzer, cache: LlmCache, h: Digest, llm: Llm, c1: Call, c2: Call, now: int)
    returns (r2: Value, asked2: bool)
    requires Valid(cache) && HexDigest(h) && an.hasClient
    requires Key(h, c1) != Key(h, c2) && Lookup(cache, Key(h, c2), now).None?
    ensures r2 == Outcome(an, llm, c2) && asked2
  {
    var r1, cache1, asked1 := Analyze(an, cache, h, llm, c1, now);
    var cache2;
    r2, cache2, asked2 := Analyze(an, cache1, h, llm, c2, now);
  }

  /** The two category lists ["ab"] and ["a", "b"] give the same key text. */
  lemma CategoryKeysCollide(h: Digest)
    requires HexDigest(h)
    ensures Key(h, CategorizeArticle("x", ["ab"])) == Key(h, CategorizeArticle("x", ["a", "b"]))
  {
    var b: seq<string> := ["a", "b"];
    assert Below("a", "b");
    assert SortStrings(b) == b;
    assert Join(SortStrings(["ab"]), "") == "ab" == Join(b, "");
  }

  /** The model answering "ab" to a choice among ["ab"] yields "ab". */
  lemma AnswerAccepted(an: Analyzer, llm: Llm)
    requires an.hasClient && llm(CategorizeArticle("x", ["ab"])) == Completion([Some("ab")])
    ensures Outcome(an, llm, CategorizeArticle("x", ["ab"])) == VStr("ab")
  {
    StripTrimmed("ab");
    assert MakeLlmCall(an, llm, CategorizeArticle("x", ["ab"])) == Some("ab");
    var low := Lower("ab");
    assert low[0] == 'a' && low[1] == 'b';
    assert low == "ab";
    assert LowerAll(["ab"])[0] == "ab";
    assert ValidCategory(Some("ab"), ["ab"]) == Some("ab");
  }

  /** "ab" is not among the lower-cased ["a", "b"]. */
  lemma NotACategory()
    ensures "ab" !in LowerAll(["a", "b"])
  {
    var low := LowerAll(["a", "b"]);
    assert |low[0]| == 1 && |low[1]| == 1;
  }

  /** Because the sorted categories are joined without a separator, asking to
      choose among ["ab"] and then among ["a", "b"] for the same text hits the
      first entry: the second call returns "ab", which is not one of its own
      categories. */
  method CategoryKeyCollision(an: Analyzer, h: Digest, llm: Llm, now: int)
    returns (r1: Value, r2: Value)
    requires HexDigest(h) && an.hasClient
    requires llm(CategorizeArticle("x", ["ab"])) == Completion([Some("ab")])
    ensures r1 == VStr("ab") && r2 == VStr("ab")
    ensures "ab" !in LowerAll(["a", "b"])
  {
    CategoryKeysCollide(h);
    AnswerAccepted(an, llm);
    NotACategory();
    var cache := NewAnalysisCache();
    var cache1, cache2, asked1, asked2;
    r1, cache1, asked1 := Analyze(an, cache, h, llm, CategorizeArticle("x", ["ab"]), now);
    r2, cache2, asked2 := Analyze(an, cache1, h, llm, CategorizeArticle("x", ["a", "b"]), now);
  }
}

=== FILE: models.dfy ===
/** The pydantic record types of `api/models.py`: their fields, declared
    defaults and bounds, and validation from a Python dictionary. */
module Models {
  import opened Wrappers
  import opened Values

  const DefaultLanguage := "en"
  const DefaultReadingLevel := 1
  const MinReadingLevel := 1
  const MaxReadingLevel := 5
  const DefaultMaxArticleLength := 1000
  const MinArticleLength := 100

  // ---------------------------------------------------------------------------
  // UserPreferences
  // ---------------------------------------------------------------------------

  datatype Preferences = Preferences(
    userId: string,
    preferredCategories: seq<string>,
    excludedSources: seq<string>,
    preferredAuthors: seq<string>,
    sources: seq<string>,
    keywords: seq<string>,
    language: string,
    minReadingLevel: int,
    maxArticleLength: int)

  /** The `ge`/`le` bounds declared on the two integer fields. */
  predicate WithinBounds(p: Preferences) {
    MinReadingLevel <= p.minReadingLevel <= MaxReadingLevel && p.maxArticleLength >= MinArticleLength
  }

  /** Every `UserPreferences` instance respects the declared bounds. */
  type UserPreferences = p: Preferences | WithinBounds(p)
    witness Preferences("", [], [], [], [], [], DefaultLanguage, DefaultReadingLevel, DefaultMaxArticleLength)

  /** The field names `UserPreferences` declares; any other key of the input is ignored. */
  const PreferenceFields: set<string> := {
    "user_id", "preferred_categories", "excluded_sources", "preferred_authors",
    "sources", "keywords", "language", "min_reading_level", "max_article_length" }

  /** A `List[str]` field that is absent or a list of strings. */
  predicate ListAccepted(d: Dict, k: string) {
    k in d ==> d[k].VList? && forall i :: 0 <= i < |d[k].items| ==> d[k].items[i].VStr?
  }

  /** The list field `k` of the record is the payload's list, or `[]` when absent. */
  predicate ListFrom(d: Dict, k: string, xs: seq<string>) {
    if k in d then d[k] == VList(StringValues(xs)) else xs == []
  }

  /** The integer field `k` of the record is the payload's integer, or the default when absent. */
  predicate IntFrom(d: Dict, k: string, default: int, x: int) {
    if k in d then d[k] == VInt(x) else x == default
  }

  /** A `List[str]` field with default `[]`. */
  function ListField(d: Dict, k: string): (r: Option<seq<string>>)
    ensures k !in d ==> r == Some([])
    ensures k in d ==> r == AsStrings(d[k])
    ensures r.Some? <==> ListAccepted(d, k)
    ensures r.Some? ==> ListFrom(d, k, r.value)
  {
    if k in d then AsStrings(d[k]) else Some([])
  }

  /** A `str` field with a default. */
  function TextField(d: Dict, k: string, default: string): (r: Option<string>)
    ensures k !in d ==> r == Some(default)
    ensures k in d ==> (r.Some? <==> d[k].VStr?)
    ensures k in d && r.Some? ==> r.value == d[k].s
  {
    if k !in d then Some(default)
    else match d[k]
      case VStr(s) => Some(s)
      case _ => None
  }

  /** An `int` field with a default and an inclusive range (`hi` absent means unbounded). */
  function IntField(d: Dict, k: string, default: int, lo: int, hi: Option<int>): (r: Option<int>)
    requires lo <= default && (hi.Some? ==> default <= hi.value)
    ensures r.Some? ==> lo <= r.value && (hi.Some? ==> r.value <= hi.value)
    ensures k !in d ==> r == Some(default)
    ensures k in d && r.Some? ==> d[k] == VInt(r.value)
    ensures r.Some? <==> (k in d ==> d[k].VInt? && lo <= d[k].i && (hi.Some? ==> d[k].i <= hi.value))
    ensures r.Some? ==> IntFrom(d, k, default, r.value)
  {
    if k !in d then Some(default)
    else match d[k]
      case VInt(i) => if lo <= i && (hi.None? || i <= hi.value) then Some(i) else None
      case _ => None
  }

  /** The payloads `UserPreferences(**d)` accepts: a string `user_id`, and
      every other declared field absent or of its type and within its bounds. */
  predicate Acceptable(d: Dict) {
    && "user_id" in d && d["user_id"].VStr?
    && ListAccepted(d, "preferred_categories") && ListAccepted(d, "excluded_sources")
    && ListAccepted(d, "preferred_authors") && ListAccepted(d, "sources") && ListAccepted(d, "keywords")
    && ("language" in d ==> d["language"].VStr?)
    && ("min_reading_level" in d ==>
          d["min_reading_level"].VInt? && MinReadingLevel <= d["min_reading_level"].i <= MaxReadingLevel)
    && ("max_article_length" in d ==>
          d["max_article_length"].VInt? && d["max_article_length"].i >= MinArticleLength)
  }

  /** `UserPreferences(**d)`: `None` where pydantic raises a `ValidationError`. */
  function PreferencesFromDict(d: Dict): (r: Option<UserPreferences>)
    ensures r.Some? <==> Acceptable(d)
    ensures "user_id" !in d ==> r.None?
    ensures r.Some? ==> VStr(r.value.userId) == d["user_id"]
    ensures r.Some? ==> ListFrom(d, "preferred_categories", r.value.preferredCategories)
    ensures r.Some? ==> ListFrom(d, "excluded_sources", r.value.excludedSources)
    ensures r.Some? ==> ListFrom(d, "preferred_authors", r.value.preferredAuthors)
    ensures r.Some? ==> ListFrom(d, "sources", r.value.sources)
    ensures r.Some? ==> ListFrom(d, "keywords", r.value.keywords)
    ensures r.Some? ==> (if "language" in d then d["language"] == VStr(r.value.language)
                         else r.value.language == DefaultLanguage)
    ensures r.Some? ==> IntFrom(d, "min_reading_level", DefaultReadingLevel, r.value.minReadingLevel)
    ensures r.Some? ==> IntFrom(d, "max_article_length", DefaultMaxArticleLength, r.value.maxArticleLength)
  {
    if "user_id" !in d || !d["user_id"].VStr? then None
    else
      var categories := ListField(d, "preferred_categories");
      var excluded := ListField(d, "excluded_sources");
      var authors := ListField(d, "preferred_authors");
      var sources := ListField(d, "sources");
      var keywords := ListField(d, "keywords");
      var language := TextField(d, "language", DefaultLanguage);
      var level := IntField(d, "min_reading_level", DefaultReadingLevel, MinReadingLevel, Some(MaxReadingLevel));
      var length := IntField(d, "max_article_length", DefaultMaxArticleLength, MinArticleLength, None);
      AcceptableReads(d);
      if categories.None? || excluded.None? || authors.None? || sources.None? || keywords.None?
         || language.None? || level.None? || length.None?
      then None
      else
        Some(Preferences(d["user_id"].s, categories.value, excluded.value, authors.value, sources.value,
                         keywords.value, language.value, level.value, length.value))
  }

  /** A payload with a string `user_id` is acceptable exactly when each field read succeeds. */
  lemma AcceptableReads(d: Dict)
    requires "user_id" in d && d["user_id"].VStr?
    ensures Acceptable(d) <==>
      && ListField(d, "preferred_categories").Some? && ListField(d, "excluded_sources").Some?
      && ListField(d, "preferred_authors").Some? && ListField(d, "sources").Some?
      && ListField(d, "keywords").Some? && TextField(d, "language", DefaultLanguage).Some?
      && IntField(d, "min_reading_level", DefaultReadingLevel, MinReadingLevel, Some(MaxReadingLevel)).Some?
      && IntField(d, "max_article_length", DefaultMaxArticleLength, MinArticleLength, None).Some?
  {
  }

  /** A record written out as a payload, every field under its declared name. */
  function PreferencesDict(p: Preferences): (d: Dict)
    ensures d.Keys == PreferenceFields
  {
    map["user_id" := VStr(p.userId),
        "preferred_categories" := VList(StringValues(p.preferredCategories)),
        "excluded_sources" := VList(StringValues(p.excludedSources)),
        "preferred_authors" := VList(StringValues(p.preferredAuthors)),
        "sources" := VList(StringValues(p.sources)),
        "keywords" := VList(StringValues(p.keywords)),
        "language" := VStr(p.language),
        "min_reading_level" := VInt(p.minReadingLevel),
        "max_article_length" := VInt(p.maxArticleLength)]
  }

  /** Every valid record, written out as a payload, is accepted and read back
      as itself: validation keeps each well-typed, in-bounds value. */
  lemma PreferencesRoundTrip(p: UserPreferences)
    ensures PreferencesFromDict(PreferencesDict(p)) == Some(p)
  {
    var d := PreferencesDict(p);
    assert Acceptable(d);
    var q := PreferencesFromDict(d).value;
    StringValuesInjective(q.preferredCategories, p.preferredCategories);
    StringValuesInjective(q.excludedSources, p.excludedSources);
    StringValuesInjective(q.preferredAuthors, p.preferredAuthors);
    StringValuesInjective(q.sources, p.sources);
    StringValuesInjective(q.keywords, p.keywords);
  }

  /** A payload holding only `user_id` gets every declared default. */
  lemma OnlyUserIdGetsDefaults(userId: string)
    ensures PreferencesFromDict(map["user_id" := VStr(userId)])
         == Some(Preferences(userId, [], [], [], [], [], DefaultLanguage, DefaultReadingLevel, DefaultMaxArticleLength))
  {
  }

  /** A reading level outside [1, 5] or an article length under 100 is rejected. */
  lemma OutOfBoundsRejected(d: Dict)
    requires || ("min_reading_level" in d && d["min_reading_level"].VInt? && !(1 <= d["min_reading_level"].i <= 5))
             || ("max_article_length" in d && d["max_article_length"].VInt? && d["max_article_length"].i < 100)
    ensures PreferencesFromDict(d).None?
  {
  }

  /** Keys `UserPreferences` does not declare (such as `topics`) are silently ignored. */
  lemma UnknownKeysIgnored(d: Dict, k: string, v: Value)
    requires k !in PreferenceFields
    ensures PreferencesFromDict(d[k := v]) == PreferencesFromDict(d)
  {
    var d' := d[k := v];
    assert forall f :: f in PreferenceFields ==> (f in d' <==> f in d) && (f in d ==> d'[f] == d[f]);
  }

  // ---------------------------------------------------------------------------
  // ArticleRecommendation and RecommendationResponse
  // ---------------------------------------------------------------------------

  datatype ArticleRecommendation = ArticleRecommendation(
    title: string,
    url: string,
    source: string,
    summary: Option<string>,
    keywords: Option<seq<string>>,
    sentiment: Option<string>,
    category: Option<string>,
    relevanceScore: Option<real>)

  /** `ArticleRecommendation(title=.., url=.., source=.., summary=.., ...)` built from
      Python values: `None` where pydantic raises, that is when a required field is not
      a string or an optional field is neither `None` nor of its declared type. */
  function MakeRecommendation(title: Value, url: Value, source: Value, summary: Value, keywords: Value,
                              sentiment: Value, category: Value, relevanceScore: Value): (r: Option<ArticleRecommendation>)
    ensures r.Some? <==> (title.VStr? && url.VStr? && source.VStr? && AsOptionalText(summary).Some?
                          && AsOptionalTexts(keywords).Some? && AsOptionalText(sentiment).Some?
                          && AsOptionalText(category).Some? && AsOptionalNumber(relevanceScore).Some?)
    ensures r.Some? ==> VStr(r.value.title) == title && VStr(r.value.url) == url && VStr(r.value.source) == source
    ensures r.Some? ==> (TextValue(r.value.summary) == summary && TextValue(r.value.sentiment) == sentiment
                         && TextValue(r.value.category) == category)
    ensures r.Some? ==> TextsValue(r.value.keywords) == keywords
    ensures r.Some? ==> AsOptionalNumber(relevanceScore) == Some(r.value.relevanceScore)
  {
    var sm := AsOptionalText(summary);
    var kw := AsOptionalTexts(keywords);
    var se := AsOptionalText(sentiment);
    var ca := AsOptionalText(category);
    var sc := AsOptionalNumber(relevanceScore);
    if title.VStr? && url.VStr? && source.VStr? && sm.Some? && kw.Some? && se.Some? && ca.Some? && sc.Some? then
      Some(ArticleRecommendation(title.s, url.s, source.s, sm.value, kw.value, se.value, ca.value, sc.value))
    else None
  }

  /** Every record, its fields written out as Python values, is built again as itself. */
  lemma RecommendationRoundTrip(r: ArticleRecommendation)
    ensures MakeRecommendation(VStr(r.title), VStr(r.url), VStr(r.source), TextValue(r.summary),
                               TextsValue(r.keywords), TextValue(r.sentiment), TextValue(r.category),
                               NumberValue(r.relevanceScore)) == Some(r)
  {
    TextsValueRoundTrip(r.keywords);
  }

  /** The three required fields given, every optional one left at its default `None`. */
  function BareRecommendation(title: string, url: string, source: string): ArticleRecommendation {
    ArticleRecommendation(title, url, source, None, None, None, None, None)
  }

  /** Both fields are required; the list may be empty. */
  datatype RecommendationResponse = RecommendationResponse(userId: string, recommendations: seq<ArticleRecommendation>)
}

=== FILE: newsapi_client.dfy ===
/** `NewsApiClient` of `fetchers/newsapi_client.py`: the API-key check, the
    canonical cache key built from the caller's parameters, the parameter
    normalisation, and the mapping from an HTTP outcome to the result. The
    HTTP exchange itself is a function parameter standing for the service. */
module NewsApiClient {
  import opened Wrappers
  import opened Strings
  import opened Values
  import opened TtlCache

  const KeyRequired := "NewsAPI key is required."
  const DefaultPageSize := 20
  const MaxPageSize := 100
  const DefaultLanguage := "en"
  const DefaultSortBy := "publishedAt"

  /** The parameters a request can carry; any other key of the input is dropped. */
  const RequestKeys: set<string> := {"q", "sources", "excludeDomains", "language", "pageSize", "sortBy", "from"}

  /** The parameters that default to "" and so are sent only when the caller gives a truthy value. */
  const OptionalKeys: set<string> := {"q", "sources", "excludeDomains", "from"}

  // ---------------------------------------------------------------------------
  // Construction
  // ---------------------------------------------------------------------------

  datatype Client = Client(apiKey: string)

  /** `NewsApiClient(api_key)`: an empty key raises `ValueError`. */
  function NewClient(apiKey: string): (r: Result<Client, string>)
    ensures r.Failure? <==> apiKey == ""
    ensures r.Failure? ==> r.error == KeyRequired
    ensures r.Success? ==> r.value.apiKey == apiKey
  {
    if apiKey == "" then Failure(KeyRequired) else Success(Client(apiKey))
  }

  /** The request headers: the key as a bearer token. */
  function Headers(c: Client): map<string, string> {
    map["Authorization" := "Bearer " + c.apiKey]
  }

  // ---------------------------------------------------------------------------
  // The cache key: `json.dumps(query_params, sort_keys=True)`
  // ---------------------------------------------------------------------------

  /** The serialised key, as the sequence of its entries in ascending key order. */
  type FetchKey = seq<(string, Value)>

  predicate Ascending(s: FetchKey) {
    forall i, j :: 0 <= i < j < |s| ==> Less(s[i].0, s[j].0)
  }

  /** The dictionary a key sequence spells out. */
  function PairsMap(s: FetchKey): (m: Dict)
    ensures forall i :: 0 <= i < |s| ==> s[i].0 in m
    ensures forall k :: k in m ==> exists i :: 0 <= i < |s| && s[i].0 == k
  {
    if |s| == 0 then map[]
    else
      var m := PairsMap(s[..|s| - 1]);
      assert forall i :: 0 <= i < |s| - 1 ==> s[..|s| - 1][i] == s[i];
      m[s[|s| - 1].0 := s[|s| - 1].1]
  }

  /** In an ascending sequence each entry's value is the one the dictionary holds. */
  lemma {:induction false} PairsMapValues(s: FetchKey)
    requires Ascending(s)
    ensures forall i :: 0 <= i < |s| ==> PairsMap(s)[s[i].0] == s[i].1
  {
    if |s| > 0 {
      var init := s[..|s| - 1];
      assert Ascending(init);
      PairsMapValues(init);
      forall i | 0 <= i < |s| - 1
        ensures PairsMap(s)[s[i].0] == s[i].1
      {
        assert init[i] == s[i];
        assert s[i].0 != s[|s| - 1].0;
      }
    }
  }

  /** A smallest key of a non-empty set, by Python's string order. */
  method Smallest(ks: set<string>) returns (k: string)
    requires ks != {}
    ensures k in ks
    ensures forall j :: j in ks && j != k ==> Less(k, j)
  {
    k :| k in ks;
    var rest := ks - {k};
    BelowReflexive(k);
    while rest != {}
      invariant k in ks && rest <= ks
      invariant forall j :: j in ks && j !in rest ==> Below(k, j)
      decreases |rest|
    {
      var j :| j in rest;
      BelowTotal(j, k);
      if Below(j, k) {
        forall m | m in ks && m !in rest
          ensures Below(j, m)
        {
          BelowTransitive(j, k, m);
        }
        BelowReflexive(j);
        k := j;
      }
      rest := rest - {j};
    }
    forall j | j in ks && j != k
      ensures Less(k, j)
    {
      if Below(j, k) {
        BelowAntisymmetric(j, k);
      }
    }
  }

  /** `make_cache_key`: the entries of the map in ascending key order. */
  method MakeCacheKey(params: Dict) returns (key: FetchKey)
    ensures Ascending(key)
    ensures PairsMap(key) == params
  {
    var rest := params.Keys;
    key := [];
    while rest != {}
      invariant rest <= params.Keys
      invariant Ascending(key)
      invariant PairsMap(key).Keys == params.Keys - rest
      invariant forall k :: k in PairsMap(key) ==> PairsMap(key)[k] == params[k]
      invariant forall i, j :: 0 <= i < |key| && j in rest ==> Less(key[i].0, j)
      decreases |rest|
    {
      var k := Smallest(rest);
      AppendLargest(key, k, params[k]);
      key := key + [(k, params[k])];
      rest := rest - {k};
    }
  }

  /** Appending an entry whose key is above all others keeps the sequence ascending. */
  lemma AppendLargest(s: FetchKey, k: string, v: Value)
    requires Ascending(s) && forall i :: 0 <= i < |s| ==> Less(s[i].0, k)
    ensures Ascending(s + [(k, v)])
    ensures PairsMap(s + [(k, v)]) == PairsMap(s)[k := v]
  {
    AppendAscending(s, k, v);
    AppendMap(s, k, v);
  }

  lemma AppendAscending(s: FetchKey, k: string, v: Value)
    requires Ascending(s) && forall i :: 0 <= i < |s| ==> Less(s[i].0, k)
    ensures Ascending(s + [(k, v)])
  {
    var t := s + [(k, v)];
    forall i, j | 0 <= i < j < |t|
      ensures Less(t[i].0, t[j].0)
    {
      if j < |s| {
        assert t[i] == s[i] && t[j] == s[j];
        assert Less(s[i].0, s[j].0);
      } else {
        assert t[i] == s[i] && t[j] == (k, v);
        assert Less(s[i].0, k);
      }
    }
  }

  lemma AppendMap(s: FetchKey, k: string, v: Value)
    ensures PairsMap(s + [(k, v)]) == PairsMap(s)[k := v]
  {
    var t := s + [(k, v)];
    assert t[..|t| - 1] == s;
  }

  /** Two ascending key sequences spelling the same dictionary are the same
      sequence: the key depends on the parameters only, never on the order
      they were inserted in. */
  lemma {:induction false} KeyUnique(a: FetchKey, b: FetchKey)
    requires Ascending(a) && Ascending(b) && PairsMap(a) == PairsMap(b)
    ensures a == b
    decreases |a|
  {
    if |a| > 0 && |b| > 0 {
      LastAgree(a, b);
      DropLast(a);
      DropLast(b);
      KeyUnique(a[..|a| - 1], b[..|b| - 1]);
      SameInitSameLast(a, b);
    } else {
      EmptyOnlyEmpty(a, b);
      EmptyOnlyEmpty(b, a);
    }
  }

  lemma SameInitSameLast(a: FetchKey, b: FetchKey)
    requires |a| > 0 && |b| > 0
    requires a[..|a| - 1] == b[..|b| - 1] && a[|a| - 1] == b[|b| - 1]
    ensures a == b
  {
    assert a == a[..|a| - 1] + [a[|a| - 1]];
    assert b == b[..|b| - 1] + [b[|b| - 1]];
  }

  /** Only the empty sequence spells the empty dictionary. */
  lemma EmptyOnlyEmpty(a: FetchKey, b: FetchKey)
    requires |a| == 0 && PairsMap(a) == PairsMap(b)
    ensures |b| == 0
  {
  }

  /** Ascending sequences spelling the same dictionary end with the same entry: its largest key. */
  lemma LastAgree(a: FetchKey, b: FetchKey)
    requires |a| > 0 && |b| > 0
    requires Ascending(a) && Ascending(b) && PairsMap(a) == PairsMap(b)
    ensures a[|a| - 1] == b[|b| - 1]
  {
    var ka, kb := a[|a| - 1].0, b[|b| - 1].0;
    assert ka in PairsMap(b);
    assert kb in PairsMap(a);
    var i :| 0 <= i < |b| && b[i].0 == ka;
    var j :| 0 <= j < |a| && a[j].0 == kb;
    assert ka == kb || Less(ka, kb);
    assert ka == kb || Less(kb, ka);
    LessAsymmetric(ka, kb);
    PairsMapValues(a);
    PairsMapValues(b);
  }

  lemma LessAsymmetric(a: string, b: string)
    ensures !(Less(a, b) && Less(b, a))
  {
    if Below(a, b) && Below(b, a) {
      BelowAntisymmetric(a, b);
    }
  }

  /** Dropping the last (largest) entry drops its key from the dictionary. */
  lemma DropLast(s: FetchKey)
    requires |s| > 0 && Ascending(s)
    ensures Ascending(s[..|s| - 1])
    ensures PairsMap(s[..|s| - 1]) == PairsMap(s) - {s[|s| - 1].0}
  {
    var init := s[..|s| - 1];
    var last := s[|s| - 1];
    forall i, j | 0 <= i < j < |init|
      ensures Less(init[i].0, init[j].0)
    {
      assert init[i] == s[i] && init[j] == s[j];
    }
    var m := PairsMap(init);
    assert PairsMap(s) == m[last.0 := last.1];
    LastAbsent(s);
    UpdateRemove(m, last.0, last.1);
  }

  lemma UpdateRemove(m: Dict, k: string, v: Value)
    requires k !in m
    ensures m[k := v] - {k} == m
  {
  }

  /** The largest key does not occur before the last entry. */
  lemma LastAbsent(s: FetchKey)
    requires |s| > 0 && Ascending(s)
    ensures s[|s| - 1].0 !in PairsMap(s[..|s| - 1])
  {
    var init := s[..|s| - 1];
    var last := s[|s| - 1];
    forall i | 0 <= i < |init|
      ensures init[i].0 != last.0
    {
      assert init[i] == s[i];
    }
  }

  /** Equal keys mean equal parameters, and equal parameters mean equal keys. */
  lemma KeyIffSameParams(p1: Dict, p2: Dict, k1: FetchKey, k2: FetchKey)
    requires Ascending(k1) && PairsMap(k1) == p1
    requires Ascending(k2) && PairsMap(k2) == p2
    ensures k1 == k2 <==> p1 == p2
  {
    if p1 == p2 {
      KeyUnique(k1, k2);
    }
  }

  // ---------------------------------------------------------------------------
  // Parameter normalisation
  // ---------------------------------------------------------------------------

  /** `int(v)`: `None` where Python raises. A float is truncated toward zero. */
  function PythonInt(v: Value): (r: Option<int>)
    ensures v.VInt? ==> r == Some(v.i)
    ensures v.VNull? || v.VList? || v.VDict? ==> r.None?
  {
    match v
    case VInt(i) => Some(i)
    case VNum(x) => Some(if x >= 0.0 then x.Floor else -((-x).Floor))
    case VStr(s) => ParseInt(s)
    case _ => None
  }

  /** The exception `int(v)` raises: a string it cannot parse gives a
      `ValueError`, a `None`, list or mapping a `TypeError`. */
  function IntError(v: Value): string {
    if v.VStr? then "ValueError: invalid literal for int()"
    else "TypeError: int() argument must be a string or a number"
  }

  /** The parameters sent for the caller's `query_params`; `None` where the
      `int(...)` conversion of `pageSize` raises (outside the request's
      error handling, so the call itself raises). */
  function Normalise(raw: Dict): (r: Option<Dict>)
    ensures r.None? <==> PythonInt(Get(raw, "pageSize", VInt(DefaultPageSize))).None?
    ensures r.Some? ==> r.value.Keys <= RequestKeys
    ensures r.Some? ==> forall k :: k in r.value ==> Truthy(r.value[k])
  {
    match PythonInt(Get(raw, "pageSize", VInt(DefaultPageSize)))
    case None => None
    case Some(n) =>
      var size := if n < MaxPageSize then n else MaxPageSize;
      var all := map[
        "q" := Get(raw, "q", VStr("")),
        "sources" := Get(raw, "sources", VStr("")),
        "excludeDomains" := Get(raw, "excludeDomains", VStr("")),
        "language" := Get(raw, "language", VStr(DefaultLanguage)),
        "pageSize" := VInt(size),
        "sortBy" := Get(raw, "sortBy", VStr(DefaultSortBy)),
        "from" := Get(raw, "from", VStr(""))];
      Some(map k | k in all && Truthy(all[k]) :: all[k])
  }

  /** `q`, `sources`, `excludeDomains` and `from` are sent exactly when the
      caller gives a truthy value, and then unchanged. */
  lemma NormaliseOptional(raw: Dict, k: string)
    requires Normalise(raw).Some? && k in OptionalKeys
    ensures var sent := Normalise(raw).value;
            (k in sent <==> k in raw && Truthy(raw[k])) && (k in sent ==> sent[k] == raw[k])
  {
    if k == "q" {
    } else if k == "sources" {
    } else if k == "excludeDomains" {
    } else {
      assert k == "from";
    }
  }

  /** `language` and `sortBy` take their defaults only when absent; a falsy
      value the caller gives is dropped, not replaced by the default. */
  lemma NormaliseDefaults(raw: Dict, k: string, default: string)
    requires Normalise(raw).Some?
    requires (k == "language" && default == DefaultLanguage) || (k == "sortBy" && default == DefaultSortBy)
    ensures var sent := Normalise(raw).value;
            && (k !in raw ==> k in sent && sent[k] == VStr(default))
            && (k in raw ==> (k in sent <==> Truthy(raw[k])) && (k in sent ==> sent[k] == raw[k]))
  {
  }

  /** The sent `pageSize` is the requested size (20 when absent) capped at
      100, and is left out when that is 0. */
  lemma NormalisePageSize(raw: Dict)
    requires Normalise(raw).Some?
    ensures var sent := Normalise(raw).value;
            var n := PythonInt(Get(raw, "pageSize", VInt(DefaultPageSize))).value;
            && ("pageSize" in sent <==> n != 0)
            && ("pageSize" in sent ==> sent["pageSize"] == VInt(if n < MaxPageSize then n else MaxPageSize))
            && ("pageSize" in sent ==> sent["pageSize"].i <= MaxPageSize)
            && ("pageSize" !in raw ==> sent["pageSize"] == VInt(DefaultPageSize))
  {
  }

  // ---------------------------------------------------------------------------
  // The request outcome
  // ---------------------------------------------------------------------------

  /** What the HTTP exchange produced: a `RequestException` before any
      response (connection error, timeout), or a response with its status
      code and its body parsed as JSON (`None` when it is not JSON). */
  datatype HttpOutcome =
    | TransportError
    | Response(status: int, body: Option<Value>)

  /** `raise_for_status` raises for 4xx and 5xx codes. */
  predicate IsHttpError(status: int) {
    400 <= status < 600
  }

  /** `len(v)` is defined: a string, a list or a dictionary. */
  predicate HasLength(v: Value) {
    v.VStr? || v.VList? || v.VDict?
  }

  /** The `try` block of `fetch_articles`: the `articles` value of a body
      whose `status` is "ok" (default `[]`), `None` for every other outcome.
      The success log line takes `len(articles)`, so an articles value
      without a length (`None`, a number) raises inside the `try` and also
      gives `None`. */
  function Classify(o: HttpOutcome): (r: Option<Value>)
    ensures r.Some? <==>
              && o.Response? && !IsHttpError(o.status) && o.body.Some? && o.body.value.VDict?
              && Get(o.body.value.fields, "status", VNull) == VStr("ok")
              && HasLength(Get(o.body.value.fields, "articles", VList([])))
    ensures r.Some? ==> r.value == Get(o.body.value.fields, "articles", VList([]))
    ensures r.Some? ==> r.value != VNull
  {
    match o
    case TransportError => None
    case Response(status, body) =>
      if IsHttpError(status) then None
      else match body
        case None => None
        case Some(VDict(data)) =>
          if Get(data, "status", VNull) == VStr("ok") then
            var articles := Get(data, "articles", VList([]));
            if HasLength(articles) then Some(articles) else None
          else None
        case Some(_) => None
  }

  /** A successful body whose `articles` is a number fails on `len()` and yields `None`. */
  lemma NumericArticlesFail(status: int, x: Value)
    requires !IsHttpError(status) && (x.VInt? || x.VNum?)
    ensures Classify(Response(status, Some(VDict(map["status" := VStr("ok"), "articles" := x])))) == None
  {
  }

  /** A successful body without an `articles` field yields an empty list. */
  lemma OkWithoutArticles(status: int)
    requires !IsHttpError(status)
    ensures Classify(Response(status, Some(VDict(map["status" := VStr("ok")])))) == Some(VList([]))
  {
  }

  // ---------------------------------------------------------------------------
  // fetch_articles behind its cache
  // ---------------------------------------------------------------------------

  /** What the service answers to the given headers and parameters. */
  type Service = (map<string, string>, Dict) -> HttpOutcome

  /** The module-level cache: 100 entries for 600 seconds. */
  function NewFetchCache(): (c: Cache<FetchKey, Option<Value>>)
    ensures Valid(c) && c.maxSize == FetchMaxSize && c.ttl == FetchTtl && c.entries == map[]
  {
    Empty(FetchMaxSize, FetchTtl)
  }

  /** `fetch_articles(query_params)` at time `now`, under the cache key
      `key`. `sent` is the parameter map of the request made, if one was
      made; `Failure` is the exception the `pageSize` conversion raises,
      which leaves nothing in the cache. */
  method FetchArticles(client: Client, cache: Cache<FetchKey, Option<Value>>, params: Dict, now: int, service: Service)
    returns (result: Result<Option<Value>, string>, cache': Cache<FetchKey, Option<Value>>, sent: Option<Dict>, key: FetchKey)
    requires Valid(cache)
    ensures Ascending(key) && PairsMap(key) == params
    ensures Valid(cache') && cache'.maxSize == cache.maxSize && cache'.ttl == cache.ttl
    ensures Lookup(cache, key, now).Some? ==>
              result == Success(Lookup(cache, key, now).value) && sent.None? && cache' == cache
    ensures Lookup(cache, key, now).None? && Normalise(params).None? ==>
              && result == Failure(IntError(Get(params, "pageSize", VInt(DefaultPageSize))))
              && sent.None? && cache' == cache
    ensures Lookup(cache, key, now).None? && Normalise(params).Some? ==>
              && sent == Normalise(params)
              && result == Success(Classify(service(Headers(client), sent.value)))
              && key in cache'.entries && cache'.entries[key] == Entry(result.value, now)
    ensures forall k :: k in cache'.entries && k != key ==> k in cache.entries && cache'.entries[k] == cache.entries[k]
  {
    key := MakeCacheKey(params);
    var hit := Lookup(cache, key, now);
    if hit.Some? {
      result, cache', sent := Success(hit.value), cache, None;
    } else {
      var normalised := Normalise(params);
      if normalised.None? {
        result, cache', sent := Failure(IntError(Get(params, "pageSize", VInt(DefaultPageSize)))), cache, None;
      } else {
        sent := normalised;
        var fetched := Classify(service(Headers(client), normalised.value));
        cache' := Put(cache, key, fetched, now);
        result := Success(fetched);
      }
    }
  }

  /** A first call that finds nothing cached makes a request; a repeat call
      with an equal parameter map while that result is live is served from
      the cache: no second request, the same result. */
  method RepeatFetchIsCached(client: Client, cache: Cache<FetchKey, Option<Value>>, params: Dict,
                             t1: int, t2: int, service: Service)
    returns (r1: Result<Option<Value>, string>, sent1: Option<Dict>, r2: Result<Option<Value>, string>, sent2: Option<Dict>)
    requires Valid(cache) && t1 <= t2 < t1 + cache.ttl
    requires forall key :: Ascending(key) && PairsMap(key) == params ==> Lookup(cache, key, t1).None?
    ensures sent1 == Normalise(params)
    ensures r1.Success? ==> r2 == r1 && sent2.None?
  {
    var c1, c2, k1, k2;
    r1, c1, sent1, k1 := FetchArticles(client, cache, params, t1, service);
    r2, c2, sent2, k2 := FetchArticles(client, c1, params, t2, service);
    KeyUnique(k1, k2);
  }

  /** After a call, a call with a different parameter map that was not
      cached before still makes its own request. */
  method OtherParamsMiss(client: Client, cache: Cache<FetchKey, Option<Value>>, p1: Dict, p2: Dict,
                         now: int, service: Service)
    returns (sent2: Option<Dict>)
    requires Valid(cache) && p1 != p2 && Normalise(p2).Some?
    requires forall key :: Ascending(key) && PairsMap(key) == p2 ==> Lookup(cache, key, now).None?
    ensures sent2 == Normalise(p2)
  {
    var r1, c1, sent1, k1 := FetchArticles(client, cache, p1, now, service);
    var r2, c2, k2;
    r2, c2, sent2, k2 := FetchArticles(client, c1, p2, now, service);
  }
}

=== FILE: preference_processor.dfy ===
/** `PreferenceProcessor`: validation of a raw preference payload and its
    translation into the query parameters of the article search. */
module PreferenceProcessor {
  import opened Wrappers
  import opened Values
  import opened Strings
  import opened Models

  const InvalidPreferenceData := "Invalid preference data"

  const PageSize := 20
  const SortBy := "publishedAt"
  const QuerySeparator := " OR "
  const ListSeparator := ","

  /** The only keys a query built from preferences can hold. */
  const QueryKeys: set<string> := {"language", "pageSize", "sortBy", "q", "sources", "excludeDomains"}

  /** `parse_and_validate`: the validated record, or the `ValueError` whose message
      starts with "Invalid preference data" (pydantic's own message is not modelled). */
  function ParseAndValidate(raw: Dict): (r: Result<UserPreferences, string>)
    ensures r.Failure? <==> PreferencesFromDict(raw).None?
    ensures r.Failure? ==> r.error == InvalidPreferenceData
    ensures r.Success? ==> PreferencesFromDict(raw) == Some(r.value)
  {
    match PreferencesFromDict(raw)
    case Some(p) => Success(p)
    case None => Failure(InvalidPreferenceData)
  }

  /** A payload without `user_id` is rejected outright, never half-built. */
  lemma MissingUserIdRejected(raw: Dict)
    requires "user_id" !in raw
    ensures ParseAndValidate(raw) == Failure(InvalidPreferenceData)
  {
  }

  /** The search terms: all preferred categories, then all keywords. */
  function SearchTerms(p: Preferences): (t: seq<string>)
    ensures |t| == |p.preferredCategories| + |p.keywords|
    ensures forall i :: 0 <= i < |p.preferredCategories| ==> t[i] == p.preferredCategories[i]
    ensures forall i :: 0 <= i < |p.keywords| ==> t[|p.preferredCategories| + i] == p.keywords[i]
    ensures forall w :: w in t <==> w in p.preferredCategories || w in p.keywords
  {
    p.preferredCategories + p.keywords
  }

  /** `transform_for_fetching`. */
  function TransformForFetching(p: Preferences): (q: Dict)
    ensures q.Keys <= QueryKeys
    ensures "language" in q && "pageSize" in q && "sortBy" in q
    ensures q["language"] == VStr(if p.language == "" then DefaultLanguage else p.language)
    ensures q["pageSize"] == VInt(PageSize) && q["sortBy"] == VStr(SortBy)
    ensures "q" in q <==> |SearchTerms(p)| > 0
    ensures "q" in q ==> q["q"] == VStr(Join(SearchTerms(p), QuerySeparator))
    ensures "sources" in q <==> |p.sources| > 0
    ensures "sources" in q ==> q["sources"] == VStr(Join(p.sources, ListSeparator))
    ensures "excludeDomains" in q <==> |p.excludedSources| > 0
    ensures "excludeDomains" in q ==> q["excludeDomains"] == VStr(Join(p.excludedSources, ListSeparator))
  {
    var base := map[
      "language" := VStr(if p.language == "" then DefaultLanguage else p.language),
      "pageSize" := VInt(PageSize),
      "sortBy" := VStr(SortBy)];
    var terms := SearchTerms(p);
    var withQuery := if |terms| > 0 then base["q" := VStr(Join(terms, QuerySeparator))] else base;
    var withSources := if |p.sources| > 0 then withQuery["sources" := VStr(Join(p.sources, ListSeparator))] else withQuery;
    if |p.excludedSources| > 0 then withSources["excludeDomains" := VStr(Join(p.excludedSources, ListSeparator))]
    else withSources
  }

  /** Authors, reading level, article length and the user id never reach the query. */
  lemma QueryIgnoresOtherFields(p1: Preferences, p2: Preferences)
    requires p1.preferredCategories == p2.preferredCategories && p1.keywords == p2.keywords
    requires p1.sources == p2.sources && p1.excludedSources == p2.excludedSources
    requires p1.language == p2.language
    ensures TransformForFetching(p1) == TransformForFetching(p2)
  {
  }

  /** A record holding nothing but its user id yields exactly the three fixed parameters. */
  lemma OnlyUserIdQuery(userId: string)
    ensures TransformForFetching(Preferences(userId, [], [], [], [], [], DefaultLanguage, DefaultReadingLevel,
                                             DefaultMaxArticleLength))
         == map["language" := VStr("en"), "pageSize" := VInt(20), "sortBy" := VStr("publishedAt")]
  {
  }

  /** Presence of `q` follows the term list, not the joined text: a single empty
      keyword still produces `q`, with the empty string as its value. */
  lemma EmptyKeywordStillSetsQuery(p: Preferences)
    requires p.preferredCategories == [] && p.keywords == [""]
    ensures "q" in TransformForFetching(p) && TransformForFetching(p)["q"] == VStr("")
  {
  }

  /** The `sources` value lists the preferred sources in order: splitting it on
      commas recovers them whenever no source name itself contains a comma. */
  lemma SourcesRecoverable(p: Preferences)
    requires |p.sources| > 0
    requires forall i :: 0 <= i < |p.sources| ==> ',' !in p.sources[i]
    ensures Split(TransformForFetching(p)["sources"].s, ',') == p.sources
  {
    SplitJoin(p.sources, ',');
  }

  /** Likewise for the excluded domains. */
  lemma ExcludedRecoverable(p: Preferences)
    requires |p.excludedSources| > 0
    requires forall i :: 0 <= i < |p.excludedSources| ==> ',' !in p.excludedSources[i]
    ensures Split(TransformForFetching(p)["excludeDomains"].s, ',') == p.excludedSources
  {
    SplitJoin(p.excludedSources, ',');
  }
}

=== FILE: strings.dfy ===
/** The string operations the Python code relies on (`str.lower`, `str.strip`,
    `sep.join`, `str.split`, the `in` substring test, `sorted` on strings,
    `str(int)` and `int(str)`), restricted to ASCII where Python's behaviour
    depends on Unicode tables. */
module Strings {
  import opened Wrappers

  // ---------------------------------------------------------------------------
  // Case folding
  // ---------------------------------------------------------------------------

  predicate IsUpper(c: char) {
    'A' <= c <= 'Z'
  }

  function LowerChar(c: char): char {
    if IsUpper(c) then (c as int + 32) as char else c
  }

  /** `s.lower()` on ASCII letters. */
  function Lower(s: string): (r: string)
    ensures |r| == |s|
    ensures forall i :: 0 <= i < |r| ==> !IsUpper(r[i])
    ensures forall i :: 0 <= i < |s| && !IsUpper(s[i]) ==> r[i] == s[i]
    ensures forall i :: 0 <= i < |s| && IsUpper(s[i]) ==> r[i] as int == s[i] as int + 32
  {
    if |s| == 0 then "" else [LowerChar(s[0])] + Lower(s[1..])
  }

  lemma LowerConcat(a: string, b: string)
    ensures Lower(a + b) == Lower(a) + Lower(b)
  {
  }

  lemma LowerIdempotent(s: string)
    ensures Lower(Lower(s)) == Lower(s)
  {
  }

  /** `[x.lower() for x in xs]`. */
  function LowerAll(xs: seq<string>): (r: seq<string>)
    ensures |r| == |xs|
    ensures forall i :: 0 <= i < |xs| ==> r[i] == Lower(xs[i])
  {
    if |xs| == 0 then [] else [Lower(xs[0])] + LowerAll(xs[1..])
  }

  // ---------------------------------------------------------------------------
  // Whitespace stripping
  // ---------------------------------------------------------------------------

  /** The ASCII characters for which Python's `str.isspace` holds. */
  predicate IsSpace(c: char) {
    c == ' ' || 9 <= c as int <= 13 || 28 <= c as int <= 31
  }

  /** Neither starts nor ends with whitespace: what `strip` leaves behind. */
  predicate Trimmed(s: string) {
    s == "" || (!IsSpace(s[0]) && !IsSpace(s[|s| - 1]))
  }

  function LeadingSpaces(s: string): (k: nat)
    ensures k <= |s|
    ensures forall i :: 0 <= i < k ==> IsSpace(s[i])
    ensures k < |s| ==> !IsSpace(s[k])
  {
    if |s| > 0 && IsSpace(s[0]) then 1 + LeadingSpaces(s[1..]) else 0
  }

  function TrailingSpaces(s: string): (k: nat)
    ensures k <= |s|
    ensures forall i :: |s| - k <= i < |s| ==> IsSpace(s[i])
    ensures k < |s| ==> !IsSpace(s[|s| - k - 1])
  {
    if |s| > 0 && IsSpace(s[|s| - 1]) then 1 + TrailingSpaces(s[..|s| - 1]) else 0
  }

  /** `r` is `s` with only whitespace cut off in front (the first `i`
      characters) and behind (everything after `r`). */
  predicate PaddedBy(s: string, r: string, i: int) {
    && 0 <= i <= |s| - |r|
    && r == s[i..i + |r|]
    && (forall j :: 0 <= j < i ==> IsSpace(s[j]))
    && (forall j :: i + |r| <= j < |s| ==> IsSpace(s[j]))
  }

  /** `s.strip()`: `s` is the result padded on both sides with whitespace only,
      and the result itself has no whitespace at either end. */
  function Strip(s: string): (r: string)
    ensures Trimmed(r)
    ensures exists i :: PaddedBy(s, r, i)
    ensures r == "" <==> forall j :: 0 <= j < |s| ==> IsSpace(s[j])
  {
    var a := LeadingSpaces(s);
    if a == |s| then
      assert PaddedBy(s, "", a);
      ""
    else
      var b := TrailingSpaces(s);
      var r := s[a..|s| - b];
      assert PaddedBy(s, r, a);
      r
  }

  lemma StripTrimmed(s: string)
    requires Trimmed(s)
    ensures Strip(s) == s
  {
    if s != "" {
      var r := Strip(s);
      var i :| PaddedBy(s, r, i);
      assert r != "";
      assert i == 0 && i + |r| == |s|;
    }
  }

  /** Stripping whitespace padding in front of an already trimmed string gives that string. */
  lemma StripPadded(pad: string, w: string)
    requires forall j :: 0 <= j < |pad| ==> IsSpace(pad[j])
    requires Trimmed(w) && w != ""
    ensures Strip(pad + w) == w
  {
    var s := pad + w;
    var r := Strip(s);
    var i :| PaddedBy(s, r, i);
    assert !IsSpace(s[|pad|]) && !IsSpace(s[|s| - 1]);
    assert r != "";
    assert r[0] == s[i];
    assert i == |pad| && i + |r| == |s|;
    assert r == s[|pad|..] == w;
  }

  // ---------------------------------------------------------------------------
  // Joining and splitting
  // ---------------------------------------------------------------------------

  /** `sep.join(parts)`. */
  function Join(parts: seq<string>, sep: string): (r: string)
    ensures |parts| == 0 ==> r == ""
    ensures |parts| > 0 ==> |r| >= |parts[0]| && r[..|parts[0]|] == parts[0]
  {
    if |parts| == 0 then ""
    else if |parts| == 1 then parts[0]
    else parts[0] + sep + Join(parts[1..], sep)
  }

  predicate Contains(hay: string, needle: string)
    decreases |hay|
  {
    |needle| <= |hay| && (hay[..|needle|] == needle || Contains(hay[1..], needle))
  }

  /** `s.split(c)` for a one-character separator: every occurrence of `c` cuts,
      so empty pieces are kept and the result is never empty. */
  function Split(s: string, c: char): (r: seq<string>)
    ensures |r| >= 1
    ensures forall i :: 0 <= i < |r| ==> c !in r[i]
    decreases |s|
  {
    if |s| == 0 then [""]
    else
      var rest := Split(s[1..], c);
      if s[0] == c then [""] + rest
      else [[s[0]] + rest[0]] + rest[1..]
  }

  /** Splitting and re-joining with the same separator gives back the input. */
  lemma {:induction false} JoinSplit(s: string, c: char)
    ensures Join(Split(s, c), [c]) == s
    decreases |s|
  {
    if |s| > 0 {
      var rest := Split(s[1..], c);
      JoinSplit(s[1..], c);
      if s[0] == c {
        assert Join([""] + rest, [c]) == "" + [c] + Join(rest, [c]);
        assert s == [c] + s[1..];
      } else if |rest| == 1 {
        assert Split(s, c) == [[s[0]] + rest[0]];
        assert s == [s[0]] + s[1..];
      } else {
        var head := [s[0]] + rest[0];
        assert Split(s, c) == [head] + rest[1..];
        assert Join([head] + rest[1..], [c]) == head + [c] + Join(rest[1..], [c]);
        assert Join(rest, [c]) == rest[0] + [c] + Join(rest[1..], [c]);
        assert s == [s[0]] + s[1..];
      }
    }
  }

  lemma {:induction false} SplitNoSeparator(w: string, c: char)
    requires c !in w
    ensures Split(w, c) == [w]
    decreases |w|
  {
    if |w| > 0 {
      SplitNoSeparator(w[1..], c);
      assert w == [w[0]] + w[1..];
    }
  }

  lemma {:induction false} SplitCut(w: string, c: char, t: string)
    requires c !in w
    ensures Split(w + [c] + t, c) == [w] + Split(t, c)
    decreases |w|
  {
    var s := w + [c] + t;
    if |w| == 0 {
      assert s[1..] == t;
    } else {
      assert s[1..] == w[1..] + [c] + t;
      SplitCut(w[1..], c, t);
      assert [w[0]] + w[1..] == w;
    }
  }

  /** Joining pieces that do not contain the separator and splitting again gives back the pieces. */
  lemma {:induction false} SplitJoin(parts: seq<string>, c: char)
    requires |parts| >= 1
    requires forall i :: 0 <= i < |parts| ==> c !in parts[i]
    ensures Split(Join(parts, [c]), c) == parts
    decreases |parts|
  {
    if |parts| == 1 {
      SplitNoSeparator(parts[0], c);
    } else {
      SplitJoin(parts[1..], c);
      assert Join(parts, [c]) == parts[0] + [c] + Join(parts[1..], [c]);
      SplitCut(parts[0], c, Join(parts[1..], [c]));
      assert parts == [parts[0]] + parts[1..];
    }
  }

  // ---------------------------------------------------------------------------
  // Substring test
  // ---------------------------------------------------------------------------

  /** The window of `hay` starting at `i` is `needle`. */
  predicate OccursAt(hay: string, needle: string, i: int) {
    0 <= i <= |hay| - |needle| && hay[i..i + |needle|] == needle
  }

  lemma {:induction false} ContainsOccurs(hay: string, needle: string) returns (i: int)
    requires Contains(hay, needle)
    ensures OccursAt(hay, needle, i)
    decreases |hay|
  {
    if hay[..|needle|] == needle {
      i := 0;
    } else {
      var k := ContainsOccurs(hay[1..], needle);
      assert hay[k + 1..k + 1 + |needle|] == hay[1..][k..k + |needle|];
      i := k + 1;
    }
  }

  lemma {:induction false} OccursContains(hay: string, needle: string, i: int)
    requires OccursAt(hay, needle, i)
    ensures Contains(hay, needle)
    decreases i
  {
    if i > 0 {
      assert hay[1..][i - 1..i - 1 + |needle|] == hay[i..i + |needle|];
      OccursContains(hay[1..], needle, i - 1);
    }
  }

  /** `needle in hay` for strings: some window of `hay` equals `needle`. */
  lemma ContainsIff(hay: string, needle: string)
    ensures Contains(hay, needle) <==> exists i :: OccursAt(hay, needle, i)
  {
    if Contains(hay, needle) {
      var i := ContainsOccurs(hay, needle);
    }
    forall i | OccursAt(hay, needle, i)
      ensures Contains(hay, needle)
    {
      OccursContains(hay, needle, i);
    }
  }

  /** A substring of a part is a substring of any string containing that part. */
  lemma ContainsWithin(a: string, b: string, c: string, needle: string)
    requires Contains(b, needle)
    ensures Contains(a + b + c, needle)
  {
    ContainsIff(b, needle);
    var i :| OccursAt(b, needle, i);
    var s := a + b + c;
    assert s[|a| + i..|a| + i + |needle|] == b[i..i + |needle|];
    assert OccursAt(s, needle, |a| + i);
    ContainsIff(s, needle);
  }

  // ---------------------------------------------------------------------------
  // Lexicographic order (Python's `<=` on `str`, by code point)
  // ---------------------------------------------------------------------------

  predicate Below(a: string, b: string) {
    |a| == 0 || (|b| > 0 && (a[0] < b[0] || (a[0] == b[0] && Below(a[1..], b[1..]))))
  }

  predicate Less(a: string, b: string) {
    Below(a, b) && a != b
  }

  lemma BelowReflexive(a: string)
    ensures Below(a, a)
  {
  }

  lemma {:induction false} BelowAntisymmetric(a: string, b: string)
    requires Below(a, b) && Below(b, a)
    ensures a == b
    decreases |a|
  {
    if |a| > 0 {
      BelowAntisymmetric(a[1..], b[1..]);
      assert a == [a[0]] + a[1..];
      assert b == [b[0]] + b[1..];
    }
  }

  lemma {:induction false} BelowTransitive(a: string, b: string, c: string)
    requires Below(a, b) && Below(b, c)
    ensures Below(a, c)
    decreases |a|
  {
    if |a| > 0 && a[0] == b[0] && b[0] == c[0] {
      BelowTransitive(a[1..], b[1..], c[1..]);
    }
  }

  lemma {:induction false} BelowTotal(a: string, b: string)
    ensures Below(a, b) || Below(b, a)
    decreases |a|
  {
    if |a| > 0 && |b| > 0 && a[0] == b[0] {
      BelowTotal(a[1..], b[1..]);
    }
  }

  // ---------------------------------------------------------------------------
  // Sorting (Python's `sorted` on a list of strings)
  // ---------------------------------------------------------------------------

  predicate SortedStrings(s: seq<string>) {
    forall i, j :: 0 <= i < j < |s| ==> Below(s[i], s[j])
  }

  function InsertString(x: string, s: seq<string>): (r: seq<string>)
    requires SortedStrings(s)
    ensures SortedStrings(r)
    ensures multiset(r) == multiset(s) + multiset{x}
  {
    if |s| == 0 then [x]
    else if Below(x, s[0]) then
      assert forall j :: 0 <= j < |s| ==> Below(x, s[j]) by {
        forall j | 0 < j < |s|
          ensures Below(x, s[j])
        {
          BelowTransitive(x, s[0], s[j]);
        }
      }
      assert s == [s[0]] + s[1..];
      [x] + s
    else
      BelowTotal(x, s[0]);
      var t := InsertString(x, s[1..]);
      assert s == [s[0]] + s[1..];
      BelowInserted(s[0], x, s[1..], t);
      [s[0]] + t
  }

  /** A lower bound of `x` and of every element of `rest` bounds any rearrangement of them. */
  lemma BelowInserted(lo: string, x: string, rest: seq<string>, t: seq<string>)
    requires multiset(t) == multiset(rest) + multiset{x}
    requires Below(lo, x) && forall j :: 0 <= j < |rest| ==> Below(lo, rest[j])
    ensures forall j :: 0 <= j < |t| ==> Below(lo, t[j])
  {
    forall j | 0 <= j < |t|
      ensures Below(lo, t[j])
    {
      assert t[j] in multiset(t);
      assert t[j] == x || t[j] in multiset(rest);
    }
  }

  /** `sorted(s)`: a sorted rearrangement of `s`. */
  function SortStrings(s: seq<string>): (r: seq<string>)
    ensures SortedStrings(r)
    ensures multiset(r) == multiset(s)
  {
    if |s| == 0 then []
    else
      assert s == [s[0]] + s[1..];
      InsertString(s[0], SortStrings(s[1..]))
  }

  /** A sorted rearrangement is unique: two sorted lists with the same elements are equal. */
  lemma {:induction false} SortedUnique(a: seq<string>, b: seq<string>)
    requires SortedStrings(a) && SortedStrings(b)
    requires multiset(a) == multiset(b)
    ensures a == b
    decreases |a|
  {
    if |a| > 0 {
      assert |b| == |multiset(b)| == |multiset(a)| == |a|;
      assert a[0] in multiset(b) && b[0] in multiset(a);
      var i :| 0 <= i < |b| && b[i] == a[0];
      var j :| 0 <= j < |a| && a[j] == b[0];
      assert Below(a[0], a[j]) by {
        if j != 0 {
        } else {
          BelowReflexive(a[0]);
        }
      }
      assert Below(b[0], b[i]) by {
        if i != 0 {
        } else {
          BelowReflexive(b[0]);
        }
      }
      BelowAntisymmetric(a[0], b[0]);
      assert a == [a[0]] + a[1..];
      assert b == [b[0]] + b[1..];
      assert multiset(a[1..]) == multiset(a) - multiset{a[0]};
      assert multiset(b[1..]) == multiset(b) - multiset{b[0]};
      SortedUnique(a[1..], b[1..]);
    }
  }

  /** Sorting does not see the order of its input. */
  lemma SortIgnoresOrder(a: seq<string>, b: seq<string>)
    requires multiset(a) == multiset(b)
    ensures SortStrings(a) == SortStrings(b)
  {
    SortedUnique(SortStrings(a), SortStrings(b));
  }

  // ---------------------------------------------------------------------------
  // Decimal numerals (`str(n)` and `int(s)`)
  // ---------------------------------------------------------------------------

  predicate IsDigit(c: char) {
    '0' <= c <= '9'
  }

  predicate AllDigits(s: string) {
    forall i :: 0 <= i < |s| ==> IsDigit(s[i])
  }

  function DigitChar(d: nat): (c: char)
    requires d < 10
    ensures IsDigit(c)
  {
    ('0' as int + d) as char
  }

  function NatToDecimal(n: nat): (r: string)
    ensures |r| >= 1 && AllDigits(r)
  {
    if n < 10 then [DigitChar(n)] else NatToDecimal(n / 10) + [DigitChar(n % 10)]
  }

  /** `str(n)` for a Python `int`. */
  function IntToString(n: int): string {
    if n < 0 then "-" + NatToDecimal(-n) else NatToDecimal(n)
  }

  function DigitsValue(s: string): nat
    requires AllDigits(s)
  {
    if |s| == 0 then 0 else DigitsValue(s[..|s| - 1]) * 10 + (s[|s| - 1] as int - '0' as int)
  }

  /** An optional sign followed by at least one ASCII digit. */
  function SignedDigits(t: string): Option<int> {
    if |t| > 0 && (t[0] == '-' || t[0] == '+') then
      var d := t[1..];
      if |d| > 0 && AllDigits(d) then
        var v: int := DigitsValue(d);
        Some(if t[0] == '-' then -v else v)
      else None
    else if |t| > 0 && AllDigits(t) then Some(DigitsValue(t))
    else None
  }

  /** `int(s)` for a string: surrounding whitespace, an optional sign and ASCII digits;
      anything else is the `ValueError` case. */
  function ParseInt(s: string): Option<int> {
    SignedDigits(Strip(s))
  }

  lemma {:induction false} DecimalRoundTrip(n: nat)
    ensures DigitsValue(NatToDecimal(n)) == n
  {
    if n >= 10 {
      DecimalRoundTrip(n / 10);
      var s := NatToDecimal(n);
      assert s[..|s| - 1] == NatToDecimal(n / 10);
    }
  }

  /** `int(str(n)) == n`. */
  lemma ParseIntRoundTrip(n: int)
    ensures ParseInt(IntToString(n)) == Some(n)
  {
    var s := IntToString(n);
    var d := NatToDecimal(if n < 0 then -n else n);
    assert IsDigit(d[0]) && IsDigit(d[|d| - 1]);
    assert !IsSpace(d[0]) && !IsSpace(d[|d| - 1]);
    if n < 0 {
      assert s[0] == '-';
      assert Trimmed(s);
      StripTrimmed(s);
      assert s[1..] == d;
    } else {
      StripTrimmed(s);
    }
    var m: nat := if n < 0 then -n else n;
    DecimalRoundTrip(m);
  }
}

=== FILE: ttl_cache.dfy ===
/** The memoisation both external-call boundaries sit behind: a `cachetools`
    `TTLCache` used through the `@cached` decorator. An entry is live while
    less than `ttl` seconds have passed since it was stored; when the cache is
    full, storing a new key evicts some live entry. Which one is left open:
    the choice belongs to the library and is not part of this model. */
module TtlCache {
  import opened Wrappers

  /** The cache sizes of `fetchers/newsapi_client.py` and `analysis/llm_analyzer.py`. */
  const FetchMaxSize := 100
  const FetchTtl := 600
  const AnalysisMaxSize := 500
  const AnalysisTtl := 3600

  datatype Entry<V> = Entry(value: V, insertedAt: int)

  datatype Cache<K, V> = Cache(maxSize: nat, ttl: nat, entries: map<K, Entry<V>>)

  /** The size bound holds and entries can live at all. */
  predicate Valid<K, V>(c: Cache<K, V>) {
    c.maxSize > 0 && c.ttl > 0 && |c.entries| <= c.maxSize
  }

  function Empty<K, V>(maxSize: nat, ttl: nat): (c: Cache<K, V>)
    requires maxSize > 0 && ttl > 0
    ensures Valid(c) && c.entries == map[]
  {
    Cache(maxSize, ttl, map[])
  }

  /** An entry stored at `insertedAt` is live at `now` while `now < insertedAt + ttl`. */
  predicate Live<V>(e: Entry<V>, ttl: nat, now: int) {
    now - e.insertedAt < ttl
  }

  /** The keys whose entries are live at `now`. */
  function LiveKeys<K(!new), V>(c: Cache<K, V>, now: int): (ks: set<K>)
    ensures ks <= c.entries.Keys
    ensures forall k :: k in ks <==> k in c.entries && Live(c.entries[k], c.ttl, now)
  {
    set k | k in c.entries && Live(c.entries[k], c.ttl, now)
  }

  /** `cache[key]` at time `now`: the stored value while it is live, nothing otherwise. */
  function Lookup<K(!new), V>(c: Cache<K, V>, k: K, now: int): (r: Option<V>)
    ensures r.Some? <==> k in LiveKeys(c, now)
  {
    if k in c.entries && Live(c.entries[k], c.ttl, now) then Some(c.entries[k].value) else None
  }

  lemma SubsetSize<K>(a: set<K>, b: set<K>)
    requires a <= b
    ensures |a| <= |b|
  {
    assert b == a + (b - a);
  }

  /** The entries of `m` under the keys `ks`. */
  function Restrict<K(!new), V>(m: map<K, Entry<V>>, ks: set<K>): (r: map<K, Entry<V>>)
    requires ks <= m.Keys
    ensures r.Keys == ks
    ensures forall j :: j in ks ==> r[j] == m[j]
  {
    map j | j in ks :: m[j]
  }

  /** `cache[key] = value` at time `now`: expired entries are dropped first,
      then, when the key is new and the cache is full, one live entry is
      evicted. */
  method Put<K(!new), V>(c: Cache<K, V>, k: K, v: V, now: int) returns (c': Cache<K, V>)
    requires Valid(c)
    ensures Valid(c') && c'.maxSize == c.maxSize && c'.ttl == c.ttl
    ensures k in c'.entries && c'.entries[k] == Entry(v, now)
    ensures Lookup(c', k, now) == Some(v)
    ensures forall j :: j in c'.entries && j != k ==> j in LiveKeys(c, now) && c'.entries[j] == c.entries[j]
    ensures k in LiveKeys(c, now) || |LiveKeys(c, now)| < c.maxSize ==> LiveKeys(c, now) <= c'.entries.Keys
    ensures !(k in LiveKeys(c, now) || |LiveKeys(c, now)| < c.maxSize) ==> |LiveKeys(c, now) - c'.entries.Keys| == 1
  {
    var live := LiveKeys(c, now);
    SubsetSize(live, c.entries.Keys);
    var keys := Survivors(live, k, c.maxSize);
    var e := Restrict(c.entries, keys)[k := Entry(v, now)];
    assert e.Keys == keys + {k};
    c' := Cache(c.maxSize, c.ttl, e);
  }

  /** The live keys that stay when `k` is stored: all of them when `k` is
      already live or there is room, all but one otherwise. */
  method Survivors<K>(live: set<K>, k: K, maxSize: nat) returns (keys: set<K>)
    requires 0 < maxSize && |live| <= maxSize
    ensures keys <= live && |keys + {k}| <= maxSize
    ensures k in live || |live| < maxSize ==> keys == live
    ensures !(k in live || |live| < maxSize) ==> |live - (keys + {k})| == 1
  {
    if k in live || |live| < maxSize {
      keys := live;
    } else {
      var victim :| victim in live;
      keys := live - {victim};
      assert live - (keys + {k}) == {victim};
    }
  }

  /** The `@cached` decorator around one call: a live entry for `k` is
      returned without running the wrapped call; otherwise the call runs,
      its result `computed` (a `None` failure included) is stored and
      returned. `called` tells whether the wrapped call ran. */
  method Memoize<K(!new), V>(c: Cache<K, V>, k: K, now: int, computed: V) returns (v: V, c': Cache<K, V>, called: bool)
    requires Valid(c)
    ensures Valid(c') && c'.maxSize == c.maxSize && c'.ttl == c.ttl
    ensures called <==> Lookup(c, k, now).None?
    ensures !called ==> v == Lookup(c, k, now).value && c' == c
    ensures called ==> v == computed && k in c'.entries && c'.entries[k] == Entry(computed, now)
    ensures Lookup(c', k, now) == Some(v)
    ensures forall j :: j != k && Lookup(c', j, now).Some? ==> Lookup(c', j, now) == Lookup(c, j, now)
  {
    var hit := Lookup(c, k, now);
    if hit.Some? {
      v, c', called := hit.value, c, false;
    } else {
      c' := Put(c, k, computed, now);
      v, called := computed, true;
    }
  }

  /** A first call that finds nothing runs the wrapped call; a second call
      with the same key before the result expires is answered from the cache
      with that result, whatever the wrapped call would return the second time. */
  method RepeatWithinTtl<K(!new), V>(c: Cache<K, V>, k: K, t1: int, t2: int, first: V, second: V)
    returns (v1: V, called1: bool, v2: V, called2: bool)
    requires Valid(c) && Lookup(c, k, t1).None? && t1 <= t2 < t1 + c.ttl
    ensures called1 && v1 == first
    ensures !called2 && v2 == first
  {
    var c1, c2;
    v1, c1, called1 := Memoize(c, k, t1, first);
    v2, c2, called2 := Memoize(c1, k, t2, second);
  }
}

=== FILE: values.dfy ===
/** Python values as they travel through the service inside dictionaries:
    fetched articles, query parameters and request payloads are all
    `Dict[str, Any]` in the source, modelled here as `map<string, Value>`. */
module Values {
  import opened Wrappers

  datatype Value =
    | VNull
    | VInt(i: int)
    | VNum(x: real)
    | VStr(s: string)
    | VList(items: seq<Value>)
    | VDict(fields: map<string, Value>)

  /** A Python `dict` with string keys. Insertion order is not part of the model. */
  type Dict = map<string, Value>

  /** Python truthiness (`if v:`). */
  predicate Truthy(v: Value) {
    match v
    case VNull => false
    case VInt(i) => i != 0
    case VNum(x) => x != 0.0
    case VStr(s) => s != ""
    case VList(xs) => xs != []
    case VDict(m) => m != map[]
  }

  /** `d.get(k, default)`. */
  function Get(d: Dict, k: string, default: Value): (v: Value)
    ensures k in d ==> v == d[k]
    ensures k !in d ==> v == default
  {
    if k in d then d[k] else default
  }

  // ---------------------------------------------------------------------------
  // Python objects stored into a dictionary
  // ---------------------------------------------------------------------------

  /** An `Optional[str]` stored as a value: `None` or a string. */
  function TextValue(o: Option<string>): Value {
    match o
    case None => VNull
    case Some(s) => VStr(s)
  }

  function StringValues(xs: seq<string>): (vs: seq<Value>)
    ensures |vs| == |xs|
    ensures forall i :: 0 <= i < |xs| ==> vs[i] == VStr(xs[i])
  {
    if |xs| == 0 then [] else [VStr(xs[0])] + StringValues(xs[1..])
  }

  /** An `Optional[List[str]]` stored as a value. */
  function TextsValue(o: Option<seq<string>>): Value {
    match o
    case None => VNull
    case Some(xs) => VList(StringValues(xs))
  }

  /** An `Optional[float]` stored as a value. */
  function NumberValue(o: Option<real>): Value {
    match o
    case None => VNull
    case Some(x) => VNum(x)
  }

  // ---------------------------------------------------------------------------
  // Typed field validation (pydantic, without its coercions)
  // ---------------------------------------------------------------------------

  /** A `List[str]` field: `None` when the value is not a list of strings. */
  function AsStrings(v: Value): (r: Option<seq<string>>)
    ensures r.Some? <==> v.VList? && forall i :: 0 <= i < |v.items| ==> v.items[i].VStr?
    ensures r.Some? ==> v == VList(StringValues(r.value))
  {
    match v
    case VList(items) => StringsOf(items)
    case _ => None
  }

  function StringsOf(items: seq<Value>): (r: Option<seq<string>>)
    ensures r.Some? <==> forall i :: 0 <= i < |items| ==> items[i].VStr?
    ensures r.Some? ==> items == StringValues(r.value)
  {
    if |items| == 0 then Some([])
    else if !items[0].VStr? then None
    else
      match StringsOf(items[1..])
      case None => None
      case Some(rest) =>
        assert items == [items[0]] + items[1..];
        Some([items[0].s] + rest)
  }

  /** An `Optional[str]` field: the outer `None` is a validation error. */
  function AsOptionalText(v: Value): Option<Option<string>> {
    match v
    case VNull => Some(None)
    case VStr(s) => Some(Some(s))
    case _ => None
  }

  /** An `Optional[List[str]]` field. */
  function AsOptionalTexts(v: Value): Option<Option<seq<string>>> {
    if v.VNull? then Some(None)
    else match AsStrings(v)
      case None => None
      case Some(xs) => Some(Some(xs))
  }

  /** An `Optional[float]` field; an `int` is accepted as a float. */
  function AsOptionalNumber(v: Value): Option<Option<real>> {
    match v
    case VNull => Some(None)
    case VInt(i) => Some(Some(i as real))
    case VNum(x) => Some(Some(x))
    case _ => None
  }

  /** Storing an optional string and validating it again gives it back. */
  lemma TextValueRoundTrip(o: Option<string>)
    ensures AsOptionalText(TextValue(o)) == Some(o)
  {
  }

  /** Storing an optional list of strings and validating it again gives it back. */
  lemma {:induction false} TextsValueRoundTrip(o: Option<seq<string>>)
    ensures AsOptionalTexts(TextsValue(o)) == Some(o)
  {
    if o.Some? {
      var vs := StringValues(o.value);
      var r := AsStrings(VList(vs));
      assert r.Some?;
      StringValuesInjective(r.value, o.value);
    }
  }

  lemma {:induction false} StringValuesInjective(a: seq<string>, b: seq<string>)
    requires StringValues(a) == StringValues(b)
    ensures a == b
  {
    assert |a| == |b|;
    forall i | 0 <= i < |a|
      ensures a[i] == b[i]
    {
      assert StringValues(a)[i] == VStr(a[i]);
      assert StringValues(b)[i] == VStr(b[i]);
    }
  }
}

=== FILE: wrappers.dfy ===
/** Failure-carrying datatypes used throughout the model: `Option` stands for a
    Python value that may be `None`, `Result` for a call that may raise. */
module Wrappers {

  datatype Option<+T> = None | Some(value: T) {

    /** The value, or `default` when absent (Python's `x if x is not None else default`). */
    function GetOr(default: T): T {
      match this
      case Some(v) => v
      case None => default
    }
  }

  datatype Result<+R, +E> = Success(value: R) | Failure(error: E) {

    predicate IsFailure() {
      Failure?
    }

    function PropagateFailure<U>(): Result<U, E>
      requires Failure?
    {
      Failure(error)
    }

    function Extract(): R
      requires Success?
    {
      value
    }
  }
}
